=== FILE: README.md ===
# EyeTracking tracking core in Dafny

This project models the per-frame logic of the EyeTracking system. Two
engines are covered.

- **The C++ `TrackingEngine`** (`core/src/tracking_engine.cpp`). It has a
  calibration state machine and a pinhole distance estimate. It builds a
  landmark layout from eye boxes, estimates gaze, head pose and shoulder
  points, and tests head and shoulder movement against strict thresholds.
  `processFrame` threads the previous pose and the previous shoulder points
  from one frame to the next.
- **The Python desktop engine** (`python_desktop/`). This covers:
  - the face detector's backend choice and largest-face pick;
  - the eye tracker's gaze estimate and focus test;
  - the engine's distance estimate, head-movement test and
    `process_frame` state flow;
  - the `TrackingResult`, `TestSession` and `User` records, with session
    scoring and the dictionary forms.

OpenCV's detectors become inputs. The model takes as given the face boxes,
the eye boxes, and the bounding box and area of each contour that the
cascades and the contour search return. The square root behind `cv::norm`
and `np.sqrt` is a parameter `sqrt`. Properties about its value are stated
for an exact root (`Geometry.ExactRoot`). Threshold tests on norms are
stated on squared distances, and a lemma proves them equivalent to the
norm test.

In the C++ code, a division by a norm can divide by zero. Those divisions
follow IEEE semantics through `Ieee.Float` (a number, +inf, -inf or NaN).
The clamps then follow `std::max(lo, std::min(hi, x))`: NaN and +inf
become the upper bound and -inf the lower bound. As a result, no
precondition excludes coincident eye centres.

Python exceptions become `Result` failures: `ZeroDivisionError`,
`KeyError`, `TypeError` and `ValueError`. On the engine's own path the face
boxes come from a cascade run with `minSize=(30, 30)`, so the gaze estimate
cannot divide by zero there, and the Python `process_frame` is modelled as
never failing. Python's `//` by 2 is floor
division, which is what Dafny's `/` computes for a positive divisor.

Modules:

| module | file | models |
|---|---|---|
| `Wrappers` | wrappers.dfy | `Option` / `Result` |
| `Geometry` | geometry.dfy | points, rectangles, clamps, squared distance, square-root facts |
| `Ieee` | ieee.dfy | double division, addition and clamping with non-finite values |
| `RectOrder` | rect_order.dfy | sorting boxes by `x` |
| `Landmarks` | core_landmarks.dfy | `detectEyes`, `detectFaceLandmarks` |
| `CoreGaze` | core_gaze.dfy | `estimateGaze`, the focus test |
| `HeadPose` | core_pose.dfy | `estimateHeadPose`, `detectHeadMovement` |
| `Shoulders` | core_shoulders.dfy | `detectShoulders` after contour extraction, `detectShoulderMovement` |
| `CoreEngine` | core_engine.dfy | engine state, calibration, `detectFace`, `calculateFaceDistance`, `processFrame` |
| `PyValues` | py_values.dfy | dictionary values, truthiness, slicing |
| `PyTrackingResult` | py_tracking_result.dfy | `TrackingResult` |
| `PyFaceDetector` | py_face_detector.dfy | `FaceDetector` |
| `PyEyeTracker` | py_eye_tracker.dfy | `EyeTracker` |
| `PyTrackingEngine` | py_tracking_engine.dfy | the Python `TrackingEngine` |
| `PyTestSession` | py_test_session.dfy | `TestSession` and its records |
| `PyUser` | py_user.dfy | `User` |

Places where the program's own text promises more than its code does. The
model follows the code:

- core/include/tracking_engine.h:49 declares a `processFrame` that takes an
  override face region, but core/src/tracking_engine.cpp defines only the
  one-argument version. That version never sets `face_detected` or the face
  rectangle, so they stay 0.
- The comment at core/src/tracking_engine.cpp:101 says "Return the largest
  face", but the code returns `faces[0]`, the first detection.
- `estimateHeadPose` checks for 10 landmarks (core/src/tracking_engine.cpp:248)
  but reads index 12 (line 258).
- The C++ `finishCalibration` sets the flag only when at least four points
  were collected. The Python `finish_calibration`
  (python_desktop/tracking/tracking_engine.py:211-213) collects no points and
  sets the flag unconditionally.

`PyTrackingResult.FromDict` has no counterpart in
python_desktop/models/tracking_result.py. It is a reference reader for the
dictionary form, and `PyTrackingResult.ToDictRoundTrip` uses it to state
that `to_dict` loses nothing.

## Model

| member | source | states |
|---|---|---|
| Geometry.Clamp | core/src/tracking_engine.cpp:285-287 | the result lies in [lo, hi]; it is the input when the input is in range, else the bound it crossed |
| Ieee.Div | core/src/tracking_engine.cpp:152 | a double quotient is finite exactly when the divisor is non-zero, and then times the divisor gives the dividend; 0/0 is NaN; x/0 is +inf or -inf by the sign of x |
| Ieee.StdClamp | core/src/tracking_engine.cpp:169 | `std::max(lo, std::min(hi, x))` lies in [lo, hi], keeps in-range numbers, sends NaN and +inf to hi and -inf to lo |
| RectOrder.SortByX | core/src/tracking_engine.cpp:205-209 | sorting boxes by x yields an x-ordered permutation of the input |
| RectOrder.SortExtremes | core/src/tracking_engine.cpp:345-353 | after sorting, the front box has the least x of all boxes and the back box the greatest, both taken from the input |
| RectOrder.SortAppendRight | python_desktop/tracking/eye_tracker.py:82-84 | sorting boxes followed by boxes that lie no further left keeps the first part's order in front |
| Landmarks.DetectEyes | core/src/tracking_engine.cpp:130-134 | one point per eye box, at the box centre |
| Landmarks.DetectFaceLandmarks | core/src/tracking_engine.cpp:175-240 | 13 landmarks with two or more eye boxes, 9 otherwise |
| Landmarks.LayoutFixedParts | core/src/tracking_engine.cpp:198-237 | the corners sit at 0-3 and the nose and mouth corners at the last three positions, at the proportional places in the face box |
| Landmarks.LayoutsAgree | core/src/tracking_engine.cpp:204-237 | the full and fallback layouts share corners, nose and mouth, shifted by four positions |
| Landmarks.FallbackLayoutEyes | core/src/tracking_engine.cpp:222-228 | with fewer than two eye boxes the eyes sit at 30% height, a quarter face width either side of the centre line |
| Landmarks.FullLayoutEyes | core/src/tracking_engine.cpp:204-221 | with two or more boxes, points 4-9 come from the box with the least x and the least x among the rest: their centres and the corners at a third of the box width |
| CoreGaze.EstimateGaze | core/src/tracking_engine.cpp:140-173 | fewer than 4 points give (0, 0); 4 or 5 points give gaze y 0; gaze y always lies in [-1, 1] |
| CoreGaze.MirroredNormIsWidth | core/src/tracking_engine.cpp:158-161 | the vector used for the eye "height" has the same length as the one used for the width |
| CoreGaze.GazeYSaturates | core/src/tracking_engine.cpp:156-170 | with 6 or more points the aspect ratio is 1, so gaze y is always clamped to 1 |
| CoreGaze.EyesFocused | core/src/tracking_engine.cpp:45-50 | both gaze components strictly below 0.1 in magnitude, with NaN and the infinities never passing; NeverFocusedWithCorners shows the y test fails with 6 or more points |
| CoreGaze.NeverFocusedWithCorners | core/src/tracking_engine.cpp:45-50 | with 6 or more eye points the eyes are never reported focused |
| CoreGaze.GazeXBounded | core/src/tracking_engine.cpp:150-152 | for distinct eye centres gaze x is a finite number in [-1, 1], and gaze x times the distance between the eye centres is exactly the left centre's x minus the right centre's x |
| CoreGaze.GazeXDegenerate | core/src/tracking_engine.cpp:150-152 | for coincident eye centres gaze x is NaN and the eyes are not focused |
| HeadPose.EstimateHeadPose | core/src/tracking_engine.cpp:242-290 | fewer than 10 landmarks give the zero pose; pitch and yaw lie in [-1, 1] and roll in [-0.5, 0.5] |
| HeadPose.YawIsRelativeEyeTilt | core/src/tracking_engine.cpp:260-268 | for distinct eye centres, yaw times the eye distance is the left eye's y minus the right eye's y: the negated y of the unit eye vector |
| HeadPose.PitchIsRelativeNoseDrop | core/src/tracking_engine.cpp:260-274 | with expected = 0.8 × eye distance and drop = nose y minus eye-centre y: an unclamped pitch times expected is drop minus expected; a drop of at least twice expected clamps to 1 and a drop of at most 0 to -1 |
| HeadPose.DetectHeadMovement | core/src/tracking_engine.cpp:292-303 | some axis changed by strictly more than 0.1; characterised by HeadMovementIsMaxChangeAboveThreshold |
| HeadPose.HeadMovementIsMaxChangeAboveThreshold | core/src/tracking_engine.cpp:292-303 | movement is flagged exactly when the largest axis change strictly exceeds 0.1; a change of exactly 0.1 never flags; the test is symmetric |
| HeadPose.NoMovementWithoutChange | core/src/tracking_engine.cpp:292-303 | a pose compared with itself shows no movement |
| HeadPose.FallbackLayoutGivesZeroPose | core/src/tracking_engine.cpp:248-250 | the 9-point fallback layout always yields the zero pose |
| HeadPose.FullLayoutRoll | core/src/tracking_engine.cpp:278-287 | on the 13-point layout roll is 0, or 0.5 (NaN clamped) when the eye distance is zero |
| Shoulders.Candidates | core/src/tracking_engine.cpp:330-343 | a box survives exactly when its contour's area is in (500, 10000) and its aspect ratio in (0.5, 3.0) |
| Shoulders.CandidatesAppend | core/src/tracking_engine.cpp:333-343 | the filter walks the contours in order: one more contour adds exactly its box at the end when it passes and nothing otherwise, so the kept boxes are counted and ordered |
| Shoulders.BandTop | core/src/tracking_engine.cpp:315 | the shoulder band starts at the floor of 0.6 times the frame height |
| Shoulders.SelectShoulders | core/src/tracking_engine.cpp:350-370 | always two points; the fixed 25%/75% width, 80% height positions when fewer than two candidates survive |
| Shoulders.ShouldersAreExtremeCandidates | core/src/tracking_engine.cpp:345-363 | with two or more candidates the points are the centres, in frame coordinates, of a leftmost and a rightmost candidate |
| Shoulders.DetectShoulderMovement | core/src/tracking_engine.cpp:373-377 | movement needs exactly two points on both sides |
| Shoulders.ShoulderMovementIsNormAboveThreshold | core/src/tracking_engine.cpp:378-384 | movement is flagged exactly when either point moved strictly more than 10 pixels |
| Shoulders.ShoulderMovementAtThreshold | core/src/tracking_engine.cpp:384 | moves of at most 10 pixels never flag |
| CoreEngine.StartCalibration | core/src/tracking_engine.cpp:69-72 | clears the points and the flag and nothing else |
| CoreEngine.AddCalibrationPoint | core/src/tracking_engine.cpp:74-76 | appends exactly the given point and keeps the flag |
| CoreEngine.FinishCalibration | core/src/tracking_engine.cpp:78-82 | calibrated afterwards exactly when it already was or at least 4 points exist |
| CoreEngine.AddCalibrationPointsAppends | core/src/tracking_engine.cpp:74-76 | successive additions append the points in order |
| CoreEngine.CalibrationSession | core/src/tracking_engine.cpp:69-82 | start, add n points, finish: calibrated exactly when n >= 4 (3 gives false, 4 gives true) |
| CoreEngine.SetCameraParameters | core/src/tracking_engine.cpp:84-87 | replaces focal length and principal point and nothing else |
| CoreEngine.DetectFace | core/src/tracking_engine.cpp:89-105 | the empty rectangle without detections, otherwise the first detection, whatever the sizes |
| CoreEngine.LaterDetectionsIgnored | core/src/tracking_engine.cpp:100-102 | appending any detections, of any size, after a non-empty list never changes the chosen face |
| CoreEngine.CalculateFaceDistance | core/src/tracking_engine.cpp:107-118 | never negative; 14 cm times focal over width when both are positive, else 0 |
| CoreEngine.FaceDistanceDecreasesWithWidth | core/src/tracking_engine.cpp:114 | a wider face is estimated strictly nearer |
| CoreEngine.ProcessFrame | core/src/tracking_engine.cpp:23-67 | without a face: the zero result, state unchanged. With one: the distance is the first face's, head and shoulder movement compare the new pose and shoulder points with the stored ones, which are then replaced; with at least 4 eye points gaze x/y and focus are those of the gaze estimate, with fewer they stay 0 and unfocused. Calibration and camera state are kept, `face_detected` and the rectangle stay 0 |
| CoreEngine.PoseChangeReported | core/src/tracking_engine.cpp:292-302 | on a frame with a face, `head_moving` holds exactly when some axis of the pose moved by more than 0.1 from the stored pose |
| CoreEngine.ShoulderChangeReported | core/src/tracking_engine.cpp:373-385 | on a frame with a face that yields two shoulder points, `shoulders_moving` holds exactly when either point is more than 10 pixels from the stored one |
| CoreEngine.FirstFrameNoShoulderMovement | core/src/tracking_engine.cpp:61-63 | the first frame after construction never reports shoulder movement |
| CoreEngine.SteadySceneNoMovement | core/src/tracking_engine.cpp:53-63 | the same detections twice in a row: no head or shoulder movement the second time |
| CoreEngine.FacelessFrameIsTransparent | core/src/tracking_engine.cpp:36-66 | a frame without a face does not affect how the next frame is processed |
| CoreEngine.CameraParametersSetDistance | core/src/tracking_engine.cpp:84-87 | after `setCameraParameters` with a positive focal length, a face of positive width is reported at 14 cm times that focal length over its width |
| CoreEngine.CalibrationDoesNotAffectFrames | core/src/tracking_engine.cpp:23-67 | the calibration flag and points do not influence a frame's result or the tracking state it leaves behind |
| PyValues.SliceLength | python_desktop/tracking/eye_tracker.py:72 | a slice's length is within the sequence; for in-range bounds it is stop - start |
| PyTrackingResult.WithDefaults | python_desktop/models/tracking_result.py:7-30 | the rectangle and extended fields default to 0.0 |
| PyTrackingResult.ToDict | python_desktop/models/tracking_result.py:32-53 | the dictionary has exactly the 18 field keys |
| PyTrackingResult.ToDictRoundTrip | python_desktop/models/tracking_result.py:32-53 | each key holds its field unchanged: reading the dictionary back gives the result |
| PyTrackingResult.ToDictInjective | python_desktop/models/tracking_result.py:32-53 | distinct results have distinct dictionaries |
| PyTrackingResult.EmptyDictIsFalsy | python_desktop/models/tracking_result.py:55-66 | the empty result stores falsy face and focus flags and distance 0.0 |
| PyFaceDetector.InitializeDetectors | python_desktop/tracking/face_detector.py:27-45 | Haar is attempted only for "auto"/"haar"; "auto" resolves to "haar" exactly when the cascade loaded, else None; other names are kept verbatim |
| PyFaceDetector.LargestIndex | python_desktop/tracking/face_detector.py:119-121 | picks a box of maximal area with every earlier box strictly smaller |
| PyFaceDetector.DetectFaceHaar | python_desktop/tracking/face_detector.py:116-121 | None exactly for no candidates, otherwise a candidate of maximal area |
| PyFaceDetector.DetectFace | python_desktop/tracking/face_detector.py:80-98 | a face only for a non-empty frame, active backend "haar" and a loaded cascade, and then one of the candidates |
| PyFaceDetector.OnlyHaarCanDetect | python_desktop/tracking/face_detector.py:93-98 | a detector built for "yolo" or an unknown name never reports a face |
| PyFaceDetector.AutoIsHaar | python_desktop/tracking/face_detector.py:35-45 | "auto" behaves exactly like "haar" |
| PyFaceDetector.HaarPicksFirstLargest | python_desktop/tracking/face_detector.py:116-121 | with candidates, the first one of largest area is returned |
| PyFaceDetector.FaceCenter | python_desktop/tracking/face_detector.py:142-145 | the centre lies in the box and is its midpoint rounded down |
| PyEyeTracker.FaceRegionSize | python_desktop/tracking/eye_tracker.py:72 | the face region is empty exactly when its row or column slice is |
| PyEyeTracker.DetectEyes | python_desktop/tracking/eye_tracker.py:39-56 | no eyes without a cascade or on an empty region, otherwise the detections |
| PyEyeTracker.EyeCentre | python_desktop/tracking/eye_tracker.py:87-88 | the centre of a box at least one pixel wide lies within its columns, and of one at least one pixel high within its rows |
| PyEyeTracker.GazeOfPair | python_desktop/tracking/eye_tracker.py:86-102 | fails, with `ZeroDivisionError`, exactly when half the face width or height rounds down to 0 |
| PyEyeTracker.GazeFromEyes | python_desktop/tracking/eye_tracker.py:81-102 | fails exactly when half the face width or height rounds down to 0 |
| PyEyeTracker.EstimateGaze | python_desktop/tracking/eye_tracker.py:58-105 | neutral gaze with fewer than two eyes; it fails exactly when two or more eyes were found and half the face width or height rounds down to 0, and then with `ZeroDivisionError` (for Python-int boxes) |
| PyEyeTracker.AreEyesFocused | python_desktop/tracking/eye_tracker.py:107-118 | both angles strictly within 10 degrees; characterised in pixels by PairFocusedIff |
| PyEyeTracker.OffsetFocusedIff | python_desktop/tracking/eye_tracker.py:98-118 | for a positive face centre, one axis passes the 10-degree test exactly when three times the averaged eye centre's offset lies strictly within the face centre |
| PyEyeTracker.PairFocusedIff | python_desktop/tracking/eye_tracker.py:86-118 | for a face at least 2 pixels each way, the gaze of an eye pair is focused exactly when, on both axes, the averaged eye centre is strictly within a third of the face half-size from the face centre |
| PyEyeTracker.NeutralGazeIsFocused | python_desktop/tracking/eye_tracker.py:104-118 | the neutral gaze passes the strict 10-degree focus test |
| PyEyeTracker.GazeWithinThirtyDegrees | python_desktop/tracking/eye_tracker.py:98-100 | with eye boxes inside a face of at least 2x2 pixels, both angles lie in [-30, 30] |
| PyEyeTracker.ExtraEyesToTheRightIgnored | python_desktop/tracking/eye_tracker.py:81-84 | boxes no further left than all others do not change the gaze |
| PyTrackingEngine.Init | python_desktop/tracking/tracking_engine.py:19-36 | not tracking, not calibrated, no previous centre, focal 2000.0, face width 15.0 cm, backend "auto" |
| PyTrackingEngine.StartTracking | python_desktop/tracking/tracking_engine.py:45-48 | sets only the tracking flag |
| PyTrackingEngine.StopTracking | python_desktop/tracking/tracking_engine.py:50-53 | clears only the tracking flag |
| PyTrackingEngine.StartCalibration | python_desktop/tracking/tracking_engine.py:206-209 | clears only the calibrated flag |
| PyTrackingEngine.FinishCalibration | python_desktop/tracking/tracking_engine.py:211-214 | sets the calibrated flag unconditionally |
| PyTrackingEngine.SetCameraParameters | python_desktop/tracking/tracking_engine.py:220-225 | always replaces the focal length; replaces the face width only when given |
| PyTrackingEngine.CalculateFaceDistance | python_desktop/tracking/tracking_engine.py:131-147 | 0.0 for a non-positive width, else face width times focal over pixel width |
| PyTrackingEngine.NegativeFocalGivesNegativeDistance | python_desktop/tracking/tracking_engine.py:143-146 | with no focal guard a negative focal length gives a negative distance |
| PyTrackingEngine.DetectMovement | python_desktop/tracking/tracking_engine.py:159-160 | never movement without a previous centre |
| PyTrackingEngine.MovementIsNormAboveThreshold | python_desktop/tracking/tracking_engine.py:162-166 | movement exactly when the centre moved strictly more than 10 pixels |
| PyTrackingEngine.FaceResult | python_desktop/tracking/tracking_engine.py:111-124 | face detected, no shoulder movement, confidence 0.8, the rectangle copied from the face box |
| PyTrackingEngine.ChosenFace | python_desktop/tracking/tracking_engine.py:72-85 | a face is chosen only when there is a frame, and it is one of the detections |
| PyTrackingEngine.ProcessFrame | python_desktop/tracking/tracking_engine.py:61-129 | no frame: empty result, no display frame, state unchanged. No face: empty result, the frame displayed, previous centre cleared. A face: its box, the distance for its width, the gaze the estimate gives, focus of that gaze, and movement of its centre against the stored one; then its centre is stored. Never fails for cascade-sized boxes |
| PyTrackingEngine.FaceMissResetsMovement | python_desktop/tracking/tracking_engine.py:86-89 | after a frame without a face the next frame never reports head movement |
| PyTrackingEngine.SteadyFaceNoMovement | python_desktop/tracking/tracking_engine.py:106-108 | the same face twice in a row: no head movement the second time |
| PyTrackingEngine.FewEyesReportedFocused | python_desktop/tracking/tracking_engine.py:100-103 | a face with fewer than two eye boxes gets gaze (0, 0) and is reported focused |
| PyTrackingEngine.YoloEngineNeverDetects | python_desktop/tracking/face_detector.py:93-98 | an engine whose detector was built for "yolo" only returns empty results |
| PyTrackingEngine.StoppedEngineIgnoresCamera | python_desktop/tracking/tracking_engine.py:72-74 | after `stop_tracking` no camera frame is processed |
| PyTrackingEngine.CameraParametersSetDistance | python_desktop/tracking/tracking_engine.py:220-225 | after `set_camera_parameters` the next face is reported at the new face width times the new focal length over its pixel width |
| PyTrackingEngine.CalibrationDoesNotAffectFrames | python_desktop/tracking/tracking_engine.py:206-214 | after `start_calibration` and after `finish_calibration` the same frame gives the same result |
| PyTestSession.TestTypeOf | python_desktop/models/test_session.py:9-13 | looking up a value finds the member with that value |
| PyTestSession.TestTypeValueRoundTrip | python_desktop/models/test_session.py:9-13 | a member's value leads back to the member |
| PyTestSession.ConfigurationToDict | python_desktop/models/test_session.py:23-29 | the four keys; duration, circle size and movement speed stored unchanged, and the stored test type identifies the configured one |
| PyTestSession.ConfigurationRoundTrip | python_desktop/models/test_session.py:23-29 | reading the dictionary back by key gives the same configuration: nothing is lost |
| PyTestSession.ResultsToDict | python_desktop/models/test_session.py:39-45 | the four keys, each field (accuracy, reaction time, movement analysis, assessment) stored unchanged |
| PyTestSession.ResultsRoundTrip | python_desktop/models/test_session.py:39-45 | reading the dictionary back by key gives the same results: nothing is lost |
| PyTestSession.IsComplete | python_desktop/models/test_session.py:59-61 | complete exactly when `completed_at` is set; SessionToDict stores `completed_at` as None exactly when incomplete |
| PyTestSession.AddTrackingPoint | python_desktop/models/test_session.py:63-70 | appends exactly one point with the given tracking data and target and keeps the earlier points |
| PyTestSession.PointError | python_desktop/models/test_session.py:87-100 | a point contributes a non-negative error exactly when it is scored; a non-numeric gaze raises `TypeError` |
| PyTestSession.SumErrors | python_desktop/models/test_session.py:83-100 | total error non-negative, count at most the number of points, count 0 exactly when no point is scored; a failure is always `TypeError` |
| PyTestSession.ScoredPointAdds | python_desktop/models/test_session.py:90-100 | appending a scored point with error x adds x to the total error and 1 to the count, wherever it is appended |
| PyTestSession.FaultyPointRaises | python_desktop/models/test_session.py:90-100 | appending a scored point whose gaze is not a number makes the whole loop raise `TypeError` |
| PyTestSession.UnscoredPointIgnored | python_desktop/models/test_session.py:90-100 | appending a point that is not scored leaves the totals unchanged |
| PyTestSession.Accuracy | python_desktop/models/test_session.py:102-107 | accuracy in [0, 1]; 0 with no scored point; 1 with zero error; with n scored points it is 0 exactly when the total error is at least 1000·n, and otherwise (1 − accuracy)·1000·n is the total error, i.e. accuracy = max(0, 1 − error/n/1000) |
| PyTestSession.MoreErrorNeverMoreAccurate | python_desktop/models/test_session.py:102-107 | over the same number of scored points, more total error never gives a higher accuracy |
| PyTestSession.Assess | python_desktop/models/test_session.py:113-124 | "Excellent" exactly above 0.8, "Poor" exactly at or below 0.4, and always one of the four grades |
| PyTestSession.AssessMonotone | python_desktop/models/test_session.py:113-124 | a higher accuracy never gets a worse assessment; the band boundaries are strict |
| PyTestSession.CalculateResults | python_desktop/models/test_session.py:72-133 | without points, the "Incomplete" result and the session unchanged. Otherwise it fails exactly when scoring does, and only with `TypeError`; on success the accuracy is that of the scored totals, reaction time is 250.0, assessment and analysis are those of the accuracy's band, and the result is stored |
| PyTestSession.PerfectTrackingIsExcellent | python_desktop/models/test_session.py:102-116 | zero error on every point gives accuracy 1.0 and "Excellent" |
| PyTestSession.NoScoredPointIsPoor | python_desktop/models/test_session.py:102-124 | with no scored point, accuracy is 0.0 and the assessment is "Poor" |
| PyTestSession.NoScoredPointSumsToZero | python_desktop/models/test_session.py:86-100 | no scored point gives zero totals |
| PyTestSession.UnscoredPointKeepsResults | python_desktop/models/test_session.py:63-133 | recording a point without a face does not change a non-empty session's results |
| PyTestSession.SessionToDict | python_desktop/models/test_session.py:135-145 | the seven keys; user id and start time stored unchanged; the nested configuration, and the results when set, read back to the session's own; `tracking_data_count` is the number of points; `results` and `completed_at` are None exactly when unset |
| PyTestSession.AddTrackingPointCounts | python_desktop/models/test_session.py:144 | each recorded point raises the stored count by one and changes nothing else in the dictionary |
| PyUser.IsAdmin | python_desktop/models/user.py:17-19 | the role is exactly "admin"; characterised for loaded users by LoadedAdminIff |
| PyUser.NewUser | python_desktop/models/user.py:10-15 | role defaults to "user" and `created_at` to None |
| PyUser.ToDict | python_desktop/models/user.py:21-28 | exactly four keys; `created_at` is None exactly when unset |
| PyUser.FromDict | python_desktop/models/user.py:30-38 | a missing email raises `KeyError`; id defaults to None and role to "user"; `created_at` is None exactly when the stored value is falsy |
| PyUser.ToDictRoundTrip | python_desktop/models/user.py:21-38 | storing and loading a user gives the same user |
| PyUser.EmailOnlyIsDefaultUser | python_desktop/models/user.py:30-38 | a dictionary holding only an email loads as a non-admin default user |
| PyUser.LoadedAdminIff | python_desktop/models/user.py:17-38 | a loaded user is an admin exactly when the dictionary holds the role "admin" |
| PyUser.AdminSurvivesStorage | python_desktop/models/user.py:17-38 | storing and loading a user keeps whether it is an admin |

## Left out

- OpenCV: colour conversion, cascade loading and `detectMultiScale`, blur, Canny, contour search, `contourArea` and `boundingRect`. Their results are inputs.
- The cascade file paths and the Python cascade search. Whether a cascade loads is a boolean input.
- Single-precision and double rounding. All arithmetic is on exact reals, and `float` casts in the C++ code are not modelled.
- `cv::norm` and `np.sqrt`. They are a parameter; value claims assume an exact root.
- Stability of sorting. `std::sort` is not stable, but the model sorts stably, as Python's `sorted` does. The shoulder contracts only use facts that hold for any sort by x: least and greatest x, and the permutation. The C++ landmark layout, and through it `CoreEngine.ProcessFrame`'s head pose, is stated for the stable order; when eye boxes share an x, an unstable sort may pick a different box of that x.
- HeadPose.EstimateHeadPose: requires fewer than 10 or at least 13 landmarks. For 10 to 12 points the source reads past the end of the vector, which is undefined behaviour. The engine only ever builds 9 or 13.
- CoreEngine.ProcessFrame: requires a non-negative frame size. The shoulder band (core/src/tracking_engine.cpp:315) is empty, and OpenCV's later processing of it is not modelled, when the frame has fewer than 3 rows or no columns. The engine never reaches that case: shoulders are only looked for once a face is found, and `detectMultiScale` is called with a minimum size of 30×30 (core/src/tracking_engine.cpp:96), so such a frame is at least 30×30.
- `initialize`, the destructor and the `extern "C"` wrapper functions in core/src/tracking_engine.cpp. They do I/O or marshalling only.
- Members declared in core/include/tracking_engine.h whose bodies are not part of this model: face-rectangle clamping and expansion, backend parsing, the YuNet and YOLO detectors, and the override-taking `processFrame`.
- The Python camera, `initialize`, `shutdown` and the drawing helpers (`draw_face_box`, `_draw_tracking_info`). The display frame is returned undrawn.
- `datetime.now()` and `isoformat`. The clock is a parameter, and `fromisoformat` is a parameter that must read back what was written.
- The principal point is stored but never used by any modelled computation.
- PyEyeTracker.GazeOfPair: the `ZeroDivisionError` for a face narrower or shorter than 2 pixels is what Python integers raise. The detector's boxes are numpy integers, for which the division would give inf or nan with a warning, but on the engine's path boxes are at least 30 pixels, so the case does not arise there.
- numpy's fixed-width integers. Face areas and centres are unbounded integers; a 32-bit product overflows only for boxes wider than 46340 pixels.
- Python dataclasses do not check types. The `User` fields hold arbitrary values, but `TrackingResult` and `TestSession` fields are typed in the model.
- `TestResults`, `TestConfiguration` and `TestSession` constructors are modelled as datatype constructors without validation, as in the source.

=== FILE: core_engine.dfy ===
/** The C++ `TrackingEngine`: its state, calibration, camera parameters, face
    choice, distance estimate and the per-frame pipeline `processFrame`
    (core/src/tracking_engine.cpp, core/include/tracking_engine.h).

    Every OpenCV detector call becomes an input: `Detections` carries what
    the face cascade, the two eye-cascade runs and the contour search of the
    shoulder band returned for one frame. */
module CoreEngine {
  import opened Geometry
  import opened Ieee
  import opened Landmarks
  import opened CoreGaze
  import opened HeadPose
  import opened Shoulders

  /** The engine's member variables that the modelled operations touch. */
  datatype Engine = Engine(
    focalLength: real,
    principalPoint: Point,
    calibrated: bool,
    calibrationPoints: seq<Point>,
    previousPose: Pose,
    previousShoulders: seq<Point>)

  const DefaultFocalLength := 1000.0
  const KnownFaceWidth := 14.0
  const MinCalibrationPoints := 4

  /** The constructor's initial state. */
  const Initial := Engine(DefaultFocalLength, Point(0.0, 0.0), false, [], ZeroPose, [])

  /** `TrackingResult`; the gaze x may be a non-finite double. */
  datatype TrackingResult = TrackingResult(
    faceDistance: real,
    gazeX: Float,
    gazeY: real,
    eyesFocused: bool,
    headMoving: bool,
    shouldersMoving: bool,
    faceDetected: bool,
    faceRectX: real,
    faceRectY: real,
    faceRectWidth: real,
    faceRectHeight: real)

  /** The zero-initialised result (`TrackingResult result = {0}`). */
  const ZeroResult := TrackingResult(0.0, Num(0.0), 0.0, false, false, false, false, 0.0, 0.0, 0.0, 0.0)

  /** What OpenCV reported for one frame. */
  datatype Detections = Detections(
    faces: seq<Rect>,
    gazeEyes: seq<Rect>,
    landmarkEyes: seq<Rect>,
    contours: seq<Contour>)

  datatype Step = Step(result: TrackingResult, engine: Engine)

  /** `startCalibration`. */
  function StartCalibration(e: Engine): (e': Engine)
    ensures !e'.calibrated && e'.calibrationPoints == []
    ensures e'.focalLength == e.focalLength && e'.principalPoint == e.principalPoint
    ensures e'.previousPose == e.previousPose && e'.previousShoulders == e.previousShoulders
  {
    e.(calibrationPoints := [], calibrated := false)
  }

  /** `addCalibrationPoint`. */
  function AddCalibrationPoint(e: Engine, p: Point): (e': Engine)
    ensures |e'.calibrationPoints| == |e.calibrationPoints| + 1
    ensures e'.calibrationPoints[..|e.calibrationPoints|] == e.calibrationPoints
    ensures e'.calibrationPoints[|e.calibrationPoints|] == p
    ensures e'.calibrated == e.calibrated
  {
    e.(calibrationPoints := e.calibrationPoints + [p])
  }

  /** `finishCalibration`: sets the flag with four or more points and never clears it. */
  function FinishCalibration(e: Engine): (e': Engine)
    ensures e'.calibrated <==> e.calibrated || |e.calibrationPoints| >= MinCalibrationPoints
    ensures e'.calibrationPoints == e.calibrationPoints
  {
    if |e.calibrationPoints| >= MinCalibrationPoints then e.(calibrated := true) else e
  }

  /** A sequence of `addCalibrationPoint` calls. */
  function AddCalibrationPoints(e: Engine, ps: seq<Point>): (e': Engine)
    decreases |ps|
  {
    if |ps| == 0 then e else AddCalibrationPoints(AddCalibrationPoint(e, ps[0]), ps[1..])
  }

  /** Adding points one by one appends them in order and leaves the flag alone. */
  lemma {:induction false} AddCalibrationPointsAppends(e: Engine, ps: seq<Point>)
    ensures AddCalibrationPoints(e, ps).calibrationPoints == e.calibrationPoints + ps
    ensures AddCalibrationPoints(e, ps).calibrated == e.calibrated
    decreases |ps|
  {
    if |ps| > 0 {
      var e1 := AddCalibrationPoint(e, ps[0]);
      AddCalibrationPointsAppends(e1, ps[1..]);
      assert e.calibrationPoints + ps == e1.calibrationPoints + ps[1..];
    }
  }

  /** A full calibration session (start, add the points, finish) leaves the
      engine calibrated exactly when at least four points were added,
      whatever the state before. */
  lemma CalibrationSession(e: Engine, ps: seq<Point>)
    ensures FinishCalibration(AddCalibrationPoints(StartCalibration(e), ps)).calibrated <==> |ps| >= MinCalibrationPoints
  {
    AddCalibrationPointsAppends(StartCalibration(e), ps);
  }

  /** `setCameraParameters`. */
  function SetCameraParameters(e: Engine, focalLength: real, principalPoint: Point): (e': Engine)
    ensures e'.focalLength == focalLength && e'.principalPoint == principalPoint
    ensures e'.calibrated == e.calibrated && e'.calibrationPoints == e.calibrationPoints
    ensures e'.previousPose == e.previousPose && e'.previousShoulders == e.previousShoulders
  {
    e.(focalLength := focalLength, principalPoint := principalPoint)
  }

  /** `detectFace`: the first detection, or the empty rectangle. The source's
      comment calls it the largest, but the first one is returned whatever
      its size. */
  function DetectFace(faces: seq<Rect>): (r: Rect)
    ensures |faces| == 0 ==> r == EmptyRect
    ensures |faces| > 0 ==> r == faces[0]
  {
    if |faces| > 0 then faces[0] else EmptyRect
  }

  /** Whatever follows the first detection, of any size, is never chosen
      over it: extending the list of detections does not change the face. */
  lemma LaterDetectionsIgnored(faces: seq<Rect>, later: seq<Rect>)
    requires |faces| > 0
    ensures DetectFace(faces + later) == DetectFace(faces)
  {
    assert (faces + later)[0] == faces[0];
  }

  /** `calculateFaceDistance`: the pinhole estimate 14 cm * focal / width in
      pixels, or 0 when either the width or the focal length is not positive. */
  function CalculateFaceDistance(focalLength: real, face: Rect): (d: real)
    ensures d >= 0.0
    ensures face.w > 0 && focalLength > 0.0 ==> d > 0.0 && d * face.w as real == KnownFaceWidth * focalLength
    ensures face.w <= 0 || focalLength <= 0.0 ==> d == 0.0
  {
    if face.w > 0 && focalLength > 0.0 then
      DistancePositive(KnownFaceWidth * focalLength, face.w as real);
      KnownFaceWidth * focalLength / face.w as real
    else
      0.0
  }

  lemma DistancePositive(n: real, w: real)
    requires n > 0.0 && w > 0.0
    ensures n / w > 0.0
  {
  }

  /** A wider face is estimated to be nearer: the distance strictly
      decreases as the pixel width grows. */
  lemma FaceDistanceDecreasesWithWidth(focalLength: real, a: Rect, b: Rect)
    requires focalLength > 0.0 && 0 < a.w < b.w
    ensures CalculateFaceDistance(focalLength, b) < CalculateFaceDistance(focalLength, a)
  {
    var da := CalculateFaceDistance(focalLength, a);
    var db := CalculateFaceDistance(focalLength, b);
    var wa := a.w as real;
    var wb := b.w as real;
    assert da * wa == db * wb;
    ProductOrder(da, db, wa, wb);
  }

  lemma ProductOrder(da: real, db: real, wa: real, wb: real)
    requires da > 0.0 && db > 0.0 && 0.0 < wa < wb && da * wa == db * wb
    ensures db < da
  {
    assert db * wb > db * wa;
    assert (da - db) * wa > 0.0;
  }

  /** `processFrame`. Without a detected face the result is all zeros and the
      engine state is untouched. With one, the distance is estimated, the gaze
      is set when at least four eye points were found, the head pose and
      shoulder points are compared with and then replace the previous ones.
      `face_detected` and the face rectangle are never written. */
  function ProcessFrame(e: Engine, width: int, height: int, d: Detections, sqrt: real -> real): (s: Step)
    requires width >= 0 && height >= 0
    ensures !IsDetected(DetectFace(d.faces)) ==> s == Step(ZeroResult, e)
    ensures !s.result.faceDetected
    ensures s.result.faceRectX == 0.0 && s.result.faceRectY == 0.0
    ensures s.result.faceRectWidth == 0.0 && s.result.faceRectHeight == 0.0
    ensures s.result.faceDistance >= 0.0
    ensures s.result.eyesFocused ==> 4 <= |d.gazeEyes| < 6
    ensures s.result.shouldersMoving ==> |e.previousShoulders| == 2
    ensures IsDetected(DetectFace(d.faces)) ==>
      s.engine.previousShoulders == SelectShoulders(width, height, d.contours)
      && s.engine.previousPose == EstimateHeadPose(DetectFaceLandmarks(DetectFace(d.faces), d.landmarkEyes), sqrt)
    ensures s.engine.focalLength == e.focalLength && s.engine.principalPoint == e.principalPoint
    ensures s.engine.calibrated == e.calibrated && s.engine.calibrationPoints == e.calibrationPoints
    ensures IsDetected(DetectFace(d.faces)) ==>
      && s.result.faceDistance == CalculateFaceDistance(e.focalLength, DetectFace(d.faces))
      && s.result.headMoving == DetectHeadMovement(s.engine.previousPose, e.previousPose)
      && s.result.shouldersMoving == DetectShoulderMovement(s.engine.previousShoulders, e.previousShoulders)
    ensures IsDetected(DetectFace(d.faces)) && |DetectEyes(d.gazeEyes)| >= 4 ==>
      var g := EstimateGaze(DetectEyes(d.gazeEyes), sqrt);
      s.result.gazeX == g.x && s.result.gazeY == g.y && s.result.eyesFocused == EyesFocused(g)
    ensures IsDetected(DetectFace(d.faces)) && |DetectEyes(d.gazeEyes)| < 4 ==>
      s.result.gazeX == Num(0.0) && s.result.gazeY == 0.0 && !s.result.eyesFocused
  {
    var face := DetectFace(d.faces);
    if !IsDetected(face) then
      Step(ZeroResult, e)
    else
      var distance := CalculateFaceDistance(e.focalLength, face);
      var eyePoints := DetectEyes(d.gazeEyes);
      var withGaze :=
        if |eyePoints| >= 4 then
          var g := EstimateGaze(eyePoints, sqrt);
          assert |eyePoints| >= 6 ==> !EyesFocused(g) by {
            if |eyePoints| >= 6 { NeverFocusedWithCorners(eyePoints, sqrt); }
          }
          ZeroResult.(faceDistance := distance, gazeX := g.x, gazeY := g.y, eyesFocused := EyesFocused(g))
        else
          ZeroResult.(faceDistance := distance);
      var facePoints := DetectFaceLandmarks(face, d.landmarkEyes);
      var pose := EstimateHeadPose(facePoints, sqrt);
      var shoulders := SelectShoulders(width, height, d.contours);
      var result := withGaze.(
        headMoving := DetectHeadMovement(pose, e.previousPose),
        shouldersMoving := DetectShoulderMovement(shoulders, e.previousShoulders));
      Step(result, e.(previousPose := pose, previousShoulders := shoulders))
  }

  /** The first frame after construction never reports shoulder movement:
      there are no previous shoulder points to compare with. */
  lemma FirstFrameNoShoulderMovement(width: int, height: int, d: Detections, sqrt: real -> real)
    requires width >= 0 && height >= 0
    ensures !ProcessFrame(Initial, width, height, d, sqrt).result.shouldersMoving
  {
  }

  /** Two frames in a row with the same detections: the second reports
      neither head nor shoulder movement. */
  lemma SteadySceneNoMovement(e: Engine, width: int, height: int, d: Detections, sqrt: real -> real)
    requires width >= 0 && height >= 0
    requires IsDetected(DetectFace(d.faces))
    ensures var s1 := ProcessFrame(e, width, height, d, sqrt);
      var s2 := ProcessFrame(s1.engine, width, height, d, sqrt);
      !s2.result.headMoving && !s2.result.shouldersMoving
  {
    var s1 := ProcessFrame(e, width, height, d, sqrt);
    var pts := SelectShoulders(width, height, d.contours);
    assert s1.engine.previousShoulders == pts;
    assert SqDist(pts[0], pts[0]) == 0.0 && SqDist(pts[1], pts[1]) == 0.0;
    NoMovementWithoutChange(s1.engine.previousPose);
  }

  /** A frame without a face leaves the state as it was, so it does not
      interrupt the movement comparison across it. */
  lemma FacelessFrameIsTransparent(e: Engine, width: int, height: int, blank: Detections, d: Detections, sqrt: real -> real)
    requires width >= 0 && height >= 0
    requires !IsDetected(DetectFace(blank.faces))
    ensures var s1 := ProcessFrame(e, width, height, blank, sqrt);
      ProcessFrame(s1.engine, width, height, d, sqrt) == ProcessFrame(e, width, height, d, sqrt)
  {
  }

  /** A focal length set through `setCameraParameters` is the one the next
      frame's distance is computed with: 14 cm * focal / width. */
  lemma CameraParametersSetDistance(e: Engine, focalLength: real, principalPoint: Point,
                                    width: int, height: int, d: Detections, sqrt: real -> real)
    requires width >= 0 && height >= 0
    requires IsDetected(DetectFace(d.faces)) && DetectFace(d.faces).w > 0 && focalLength > 0.0
    ensures var s := ProcessFrame(SetCameraParameters(e, focalLength, principalPoint), width, height, d, sqrt);
      s.result.faceDistance * DetectFace(d.faces).w as real == KnownFaceWidth * focalLength
  {
  }

  /** Calibration does not enter the per-frame pipeline: two engines that
      differ only in their calibration state report the same result and
      move to the same tracking state. */
  lemma CalibrationDoesNotAffectFrames(e: Engine, calibrated: bool, points: seq<Point>,
                                       width: int, height: int, d: Detections, sqrt: real -> real)
    requires width >= 0 && height >= 0
    ensures var e' := e.(calibrated := calibrated, calibrationPoints := points);
      var s := ProcessFrame(e, width, height, d, sqrt);
      var s' := ProcessFrame(e', width, height, d, sqrt);
      s'.result == s.result && s'.engine == s.engine.(calibrated := calibrated, calibrationPoints := points)
  {
  }

  /** A head-pose change of more than 0.1 on some axis since the previous
      frame is reported, and a smaller one is not. */
  lemma PoseChangeReported(e: Engine, width: int, height: int, d: Detections, sqrt: real -> real)
    requires width >= 0 && height >= 0
    requires IsDetected(DetectFace(d.faces))
    ensures var s := ProcessFrame(e, width, height, d, sqrt);
      s.result.headMoving <==> MaxAxisChange(s.engine.previousPose, e.previousPose) > HeadPose.MovementThreshold
  {
    var s := ProcessFrame(e, width, height, d, sqrt);
    HeadMovementIsMaxChangeAboveThreshold(s.engine.previousPose, e.previousPose);
  }

  /** Once shoulder points are stored, a frame reports shoulder movement
      exactly when either selected point lies more than 10 pixels (under an
      exact root) from its stored counterpart. */
  lemma ShoulderChangeReported(e: Engine, width: int, height: int, d: Detections, sqrt: real -> real)
    requires width >= 0 && height >= 0
    requires IsDetected(DetectFace(d.faces)) && |e.previousShoulders| == 2
    requires var pts := SelectShoulders(width, height, d.contours);
      ExactRoot(sqrt, SqDist(pts[0], e.previousShoulders[0])) && ExactRoot(sqrt, SqDist(pts[1], e.previousShoulders[1]))
    ensures var pts := SelectShoulders(width, height, d.contours);
      ProcessFrame(e, width, height, d, sqrt).result.shouldersMoving <==>
        sqrt(SqDist(pts[0], e.previousShoulders[0])) > Shoulders.MovementThreshold
        || sqrt(SqDist(pts[1], e.previousShoulders[1])) > Shoulders.MovementThreshold
  {
    ShoulderMovementIsNormAboveThreshold(SelectShoulders(width, height, d.contours), e.previousShoulders, sqrt);
  }
}

=== FILE: core_gaze.dfy ===
/** Gaze estimation of the C++ engine (`estimateGaze` and the focus test in
    `processFrame`, core/src/tracking_engine.cpp). */
module CoreGaze {
  import opened Geometry
  import opened Ieee

  /** Horizontal and vertical gaze. The horizontal part is a quotient by a
      norm and may be NaN or infinite; the vertical part is always clamped. */
  datatype Gaze = Gaze(x: Float, y: real)

  const NoGaze := Gaze(Num(0.0), 0.0)

  /** Both components strictly below this magnitude count as focused. */
  const FocusThreshold := 0.1

  /** `estimateGaze`. Points 0 and 1 are taken as the left and right eye
      centres; with six or more points, 2-5 are taken as the two eyes' corner
      pairs, whose aspect ratios give the vertical component. */
  function EstimateGaze(pts: seq<Point>, sqrt: real -> real): (g: Gaze)
    ensures |pts| < 4 ==> g == NoGaze
    ensures 4 <= |pts| < 6 ==> g.y == 0.0
    ensures -1.0 <= g.y <= 1.0
  {
    if |pts| < 4 then
      NoGaze
    else
      var left := pts[0];
      var right := pts[1];
      var eyeDistance := sqrt(SqDist(left, right));
      var gazeX := Div(left.x - right.x, eyeDistance);
      var gazeY :=
        if |pts| >= 6 then
          var leftWidth := sqrt(SqDist(pts[2], pts[3]));
          var leftHeight := sqrt(SqDist(Point(pts[2].x, pts[3].y), Point(pts[3].x, pts[2].y)));
          var rightWidth := sqrt(SqDist(pts[4], pts[5]));
          var rightHeight := sqrt(SqDist(Point(pts[4].x, pts[5].y), Point(pts[5].x, pts[4].y)));
          var avgAspect := Affine(Add(Div(leftHeight, leftWidth), Div(rightHeight, rightWidth)), 0.0, 0.5);
          StdClamp(-1.0, 1.0, Affine(avgAspect, 0.3, 5.0))
        else
          0.0;
      Gaze(gazeX, gazeY)
  }

  /** `eyes_focused`: both gaze components strictly inside the threshold. */
  predicate EyesFocused(g: Gaze) {
    AbsBelow(g.x, FocusThreshold) && Abs(g.y) < FocusThreshold
  }

  /** The "height" of an eye is measured between `(p.x, q.y)` and `(q.x, p.y)`,
      a mirror image of the width vector, so it always equals the width. */
  lemma MirroredNormIsWidth(p: Point, q: Point)
    ensures SqDist(Point(p.x, q.y), Point(q.x, p.y)) == SqDist(p, q)
  {
    var d := p.y - q.y;
    assert (q.y - p.y) * (q.y - p.y) == d * d by {
      assert q.y - p.y == -d;
    }
  }

  /** As written, every eye aspect ratio is exactly 1 (or NaN for a zero
      width), so with six or more points the vertical gaze is always pinned at
      the upper clamp bound 1, whatever the points and the square root. */
  lemma GazeYSaturates(pts: seq<Point>, sqrt: real -> real)
    requires |pts| >= 6
    ensures EstimateGaze(pts, sqrt).y == 1.0
  {
    MirroredNormIsWidth(pts[2], pts[3]);
    MirroredNormIsWidth(pts[4], pts[5]);
    var lw := sqrt(SqDist(pts[2], pts[3]));
    var rw := sqrt(SqDist(pts[4], pts[5]));
    var sum := Add(Div(lw, lw), Div(rw, rw));
    if lw != 0.0 && rw != 0.0 {
      assert Div(lw, lw) == Num(1.0);
      assert Div(rw, rw) == Num(1.0);
      assert sum == Num(2.0);
    } else {
      assert sum == NaN;
    }
  }

  /** With six or more points the eyes are never reported as focused. */
  lemma NeverFocusedWithCorners(pts: seq<Point>, sqrt: real -> real)
    requires |pts| >= 6
    ensures !EyesFocused(EstimateGaze(pts, sqrt))
  {
    GazeYSaturates(pts, sqrt);
  }

  /** When the root is exact and the eye centres differ, the horizontal gaze
      is a finite value in [-1, 1]: a coordinate difference over the length of
      the vector it belongs to. */
  lemma GazeXBounded(pts: seq<Point>, sqrt: real -> real)
    requires |pts| >= 4
    requires ExactRoot(sqrt, SqDist(pts[0], pts[1])) && sqrt(SqDist(pts[0], pts[1])) > 0.0
    ensures EstimateGaze(pts, sqrt).x.Num?
    ensures -1.0 <= EstimateGaze(pts, sqrt).x.v <= 1.0
    ensures EstimateGaze(pts, sqrt).x.v * sqrt(SqDist(pts[0], pts[1])) == pts[0].x - pts[1].x
  {
    var dx := pts[0].x - pts[1].x;
    var dy := pts[0].y - pts[1].y;
    var r := sqrt(SqDist(pts[0], pts[1]));
    assert SqDist(pts[0], pts[1]) == dx * dx + dy * dy;
    ComponentBelowRoot(sqrt, dx, dy);
    UnitQuotient(dx, r);
  }

  /** When the two eye centres coincide and the root of 0 is 0, the horizontal
      gaze is 0/0, i.e. NaN, and the eyes are not focused. */
  lemma GazeXDegenerate(pts: seq<Point>, sqrt: real -> real)
    requires |pts| >= 4 && pts[0] == pts[1] && sqrt(0.0) == 0.0
    ensures EstimateGaze(pts, sqrt).x == NaN
    ensures !EyesFocused(EstimateGaze(pts, sqrt))
  {
    assert SqDist(pts[0], pts[1]) == 0.0;
  }
}

=== FILE: core_landmarks.dfy ===
/** Eye points and the fixed-layout facial landmark list of the C++ engine
    (`detectEyes`, `detectFaceLandmarks` in core/src/tracking_engine.cpp).

    The Haar cascades are not modelled: the eye boxes they return, in
    face-region coordinates, are inputs. */
module Landmarks {
  import opened Geometry
  import opened RectOrder

  /** Number of points when at least two eyes are detected, and otherwise. */
  const FullLayoutSize := 13
  const FallbackLayoutSize := 9

  /** Centre of a box, `(x + w / 2.0, y + h / 2.0)`, in the box's own coordinates. */
  function BoxCentre(b: Rect): Point {
    Point(b.x as real + b.w as real / 2.0, b.y as real + b.h as real / 2.0)
  }

  /** `detectEyes`: one centre per detected eye box, in detector order and in
      face-region coordinates. */
  function DetectEyes(eyes: seq<Rect>): (pts: seq<Point>)
    ensures |pts| == |eyes|
    ensures forall i :: 0 <= i < |eyes| ==> pts[i].x * 2.0 == (2 * eyes[i].x + eyes[i].w) as real
    ensures forall i :: 0 <= i < |eyes| ==> pts[i].y * 2.0 == (2 * eyes[i].y + eyes[i].h) as real
  {
    seq(|eyes|, i requires 0 <= i < |eyes| => BoxCentre(eyes[i]))
  }

  /** The centre of an eye box found inside `face`, in frame coordinates. */
  function EyeCentreInFrame(face: Rect, eye: Rect): Point {
    Point(face.x as real + eye.x as real + eye.w as real / 2.0,
          face.y as real + eye.y as real + eye.h as real / 2.0)
  }

  function FaceCentreX(face: Rect): real {
    face.x as real + face.w as real / 2.0
  }

  /** The four corners of the face box: top-left, top-right, bottom-left, bottom-right. */
  function Corners(face: Rect): seq<Point> {
    var fx := face.x as real;
    var fy := face.y as real;
    var fw := face.w as real;
    var fh := face.h as real;
    [Point(fx, fy), Point(fx + fw, fy), Point(fx, fy + fh), Point(fx + fw, fy + fh)]
  }

  /** The eye part of the layout: with two or more eye boxes the centres of
      the two leftmost boxes and their estimated corners, otherwise two
      proportional positions at 30% of the face height, a quarter of the face
      width either side of the centre line. */
  function EyePoints(face: Rect, eyes: seq<Rect>): seq<Point> {
    var fx := face.x as real;
    var fy := face.y as real;
    var fw := face.w as real;
    var fh := face.h as real;
    if |eyes| >= 2 then
      var sorted := SortByX(eyes);
      var l := EyeCentreInFrame(face, sorted[0]);
      var r := EyeCentreInFrame(face, sorted[1]);
      var lw := sorted[0].w as real / 3.0;
      var rw := sorted[1].w as real / 3.0;
      [l, r, Point(l.x - lw, l.y), Point(l.x + lw, l.y), Point(r.x - rw, r.y), Point(r.x + rw, r.y)]
    else
      var eyeY := fy + fh * 0.3;
      var spacing := fw * 0.25;
      [Point(fx + fw / 2.0 - spacing, eyeY), Point(fx + fw / 2.0 + spacing, eyeY)]
  }

  /** The nose tip and the two mouth corners. */
  function NoseAndMouth(face: Rect): seq<Point> {
    var fx := face.x as real;
    var fy := face.y as real;
    var fw := face.w as real;
    var fh := face.h as real;
    var mouthY := fy + fh * 0.75;
    var mouthWidth := fw * 0.4;
    [Point(fx + fw / 2.0, fy + fh * 0.5),
     Point(fx + fw / 2.0 - mouthWidth / 2.0, mouthY),
     Point(fx + fw / 2.0 + mouthWidth / 2.0, mouthY)]
  }

  /** `detectFaceLandmarks`: four face corners, then the eyes, then the nose
      tip and the two mouth corners. */
  function DetectFaceLandmarks(face: Rect, eyes: seq<Rect>): (lm: seq<Point>)
    ensures |lm| == (if |eyes| >= 2 then FullLayoutSize else FallbackLayoutSize)
  {
    Corners(face) + EyePoints(face, eyes) + NoseAndMouth(face)
  }

  /** The parts of the layout that do not depend on the eye detector: the
      corners of `face` at 0-3, and at the last three positions the nose tip at
      mid-height on the vertical centre line and the mouth corners at three
      quarters height, a fifth of the face width either side of that line. */
  lemma LayoutFixedParts(face: Rect, eyes: seq<Rect>)
    ensures var lm := DetectFaceLandmarks(face, eyes);
      var n := |lm|;
      var cx := FaceCentreX(face);
      && lm[0] == Point(face.x as real, face.y as real)
      && lm[1] == Point((face.x + face.w) as real, face.y as real)
      && lm[2] == Point(face.x as real, (face.y + face.h) as real)
      && lm[3] == Point((face.x + face.w) as real, (face.y + face.h) as real)
      && lm[n - 3] == Point(cx, face.y as real + face.h as real / 2.0)
      && lm[n - 2] == Point(cx - face.w as real / 5.0, face.y as real + face.h as real * 3.0 / 4.0)
      && lm[n - 1] == Point(cx + face.w as real / 5.0, face.y as real + face.h as real * 3.0 / 4.0)
  {
  }

  /** The full and the fallback layouts agree on the corners, the nose and the
      mouth, shifted by the four eye-corner points the fallback lacks. */
  lemma LayoutsAgree(face: Rect, found: seq<Rect>, missing: seq<Rect>)
    requires |found| >= 2 && |missing| < 2
    ensures var full := DetectFaceLandmarks(face, found);
      var fallback := DetectFaceLandmarks(face, missing);
      full[..4] == fallback[..4] && full[10..] == fallback[6..]
  {
    LayoutFixedParts(face, found);
    LayoutFixedParts(face, missing);
  }

  /** With fewer than two eye boxes, points 4 and 5 sit at 30% of the face
      height, a quarter of the face width left and right of the centre line. */
  lemma FallbackLayoutEyes(face: Rect, eyes: seq<Rect>)
    requires |eyes| < 2
    ensures var lm := DetectFaceLandmarks(face, eyes);
      var cx := FaceCentreX(face);
      var eyeY := face.y as real + face.h as real * 3.0 / 10.0;
      lm[4] == Point(cx - face.w as real / 4.0, eyeY) && lm[5] == Point(cx + face.w as real / 4.0, eyeY)
  {
    var lm := DetectFaceLandmarks(face, eyes);
    assert lm[4..6] == EyePoints(face, eyes);
  }

  /** Points 4-9 of `lm` are built from the eye boxes at positions `i` and
      `j` of `eyes`: `i` holds the smallest `x` of all boxes and `j` the
      smallest `x` of the others; 4 and 5 are their frame-coordinate centres,
      6-9 lie on the same rows a third of the box width left and right. */
  predicate EyesFromBoxes(face: Rect, eyes: seq<Rect>, lm: seq<Point>, i: int, j: int) {
    && 0 <= i < |eyes| && 0 <= j < |eyes| && i != j && |lm| >= 10
    && (forall k :: 0 <= k < |eyes| ==> eyes[i].x <= eyes[k].x)
    && (forall k :: 0 <= k < |eyes| && k != i ==> eyes[j].x <= eyes[k].x)
    && lm[4] == EyeCentreInFrame(face, eyes[i])
    && lm[5] == EyeCentreInFrame(face, eyes[j])
    && lm[6] == Point(lm[4].x - eyes[i].w as real / 3.0, lm[4].y)
    && lm[7] == Point(lm[4].x + eyes[i].w as real / 3.0, lm[4].y)
    && lm[8] == Point(lm[5].x - eyes[j].w as real / 3.0, lm[5].y)
    && lm[9] == Point(lm[5].x + eyes[j].w as real / 3.0, lm[5].y)
  }

  /** With two or more eye boxes, points 4-9 come from the two leftmost boxes. */
  lemma FullLayoutEyes(face: Rect, eyes: seq<Rect>)
    requires |eyes| >= 2
    ensures exists i, j :: EyesFromBoxes(face, eyes, DetectFaceLandmarks(face, eyes), i, j)
  {
    var sorted := SortByX(eyes);
    var i, j := SortedFirstTwo(eyes, sorted);
    var lm := DetectFaceLandmarks(face, eyes);
    var ep := EyePoints(face, eyes);
    assert lm == Corners(face) + ep + NoseAndMouth(face);
    assert lm[4..10] == ep;
    assert EyesFromBoxes(face, eyes, lm, i, j);
  }

  /** The first element of a sorted permutation of `s` is at some position
      of `s` and has the smallest `x` there. */
  lemma SortedFirst(s: seq<Rect>, r: seq<Rect>) returns (i: int)
    requires |s| >= 1 && SortedByX(r) && multiset(r) == multiset(s)
    ensures 0 <= i < |s| && s[i] == r[0]
    ensures forall k :: 0 <= k < |s| ==> s[i].x <= s[k].x
  {
    assert |r| == |s| by {
      assert |multiset(r)| == |multiset(s)|;
    }
    assert r[0] in multiset(s);
    i :| 0 <= i < |s| && s[i] == r[0];
    forall k | 0 <= k < |s|
      ensures s[i].x <= s[k].x
    {
      assert s[k] in multiset(r);
      var m :| 0 <= m < |r| && r[m] == s[k];
    }
  }

  lemma SortedTail(r: seq<Rect>)
    requires |r| > 0 && SortedByX(r)
    ensures SortedByX(r[1..])
  {
    forall a, b | 0 <= a < b < |r| - 1
      ensures r[1..][a].x <= r[1..][b].x
    {
      assert r[1..][a] == r[a + 1] && r[1..][b] == r[b + 1];
    }
  }

  /** Removing position `i` removes one occurrence of `s[i]`. */
  lemma RemoveAt(s: seq<Rect>, i: int)
    requires 0 <= i < |s|
    ensures multiset(s[..i] + s[i + 1..]) == multiset(s) - multiset{s[i]}
  {
    assert s == s[..i] + [s[i]] + s[i + 1..];
  }

  /** Taking the same element out of two permutations of each other leaves
      permutations of each other. */
  lemma SameAfterRemoval(s: seq<Rect>, r: seq<Rect>, i: int)
    requires 0 <= i < |s| && |r| > 0 && s[i] == r[0] && multiset(r) == multiset(s)
    ensures multiset(s[..i] + s[i + 1..]) == multiset(r[1..])
  {
    RemoveAt(s, i);
    RemoveAt(r, 0);
    assert r[..0] + r[1..] == r[1..];
  }

  /** The first two elements of a sorted permutation come from two different
      positions of the input, the leftmost one and the leftmost of the rest. */
  lemma SortedFirstTwo(s: seq<Rect>, r: seq<Rect>) returns (i: int, j: int)
    requires |s| >= 2 && |r| == |s| && SortedByX(r) && multiset(r) == multiset(s)
    ensures 0 <= i < |s| && 0 <= j < |s| && i != j
    ensures s[i] == r[0] && s[j] == r[1]
    ensures forall k :: 0 <= k < |s| ==> s[i].x <= s[k].x
    ensures forall k :: 0 <= k < |s| && k != i ==> s[j].x <= s[k].x
  {
    i := SortedFirst(s, r);
    var rest := s[..i] + s[i + 1..];
    var tail := r[1..];
    SameAfterRemoval(s, r, i);
    SortedTail(r);
    var jr := SortedFirst(rest, tail);
    j := if jr < i then jr else jr + 1;
    assert s[j] == rest[jr];
    forall k | 0 <= k < |s| && k != i
      ensures s[j].x <= s[k].x
    {
      var kr := if k < i then k else k - 1;
      assert rest[kr] == s[k];
    }
  }
}

=== FILE: core_pose.dfy ===
/** Head-pose estimation and head-movement detection of the C++ engine
    (`estimateHeadPose`, `detectHeadMovement` in core/src/tracking_engine.cpp). */
module HeadPose {
  import opened Geometry
  import opened Ieee
  import opened Landmarks

  /** Pitch, yaw and roll as normalised (not angular) estimates. */
  datatype Pose = Pose(pitch: real, yaw: real, roll: real)

  /** The default-constructed `cv::Vec3f`, also the answer for too few landmarks. */
  const ZeroPose := Pose(0.0, 0.0, 0.0)

  const MinLandmarks := 10
  const MovementThreshold := 0.1

  /** Pitch and yaw in [-1, 1], roll in [-0.5, 0.5]. */
  predicate InRange(p: Pose) {
    -1.0 <= p.pitch <= 1.0 && -1.0 <= p.yaw <= 1.0 && -0.5 <= p.roll <= 0.5
  }

  /** `estimateHeadPose`. From 10 landmarks on it reads the eye centres at 4
      and 5, the nose at 10 and the mouth corners at 11 and 12, without
      checking that 11 and 12 exist: a list of 10 to 12 points is undefined
      behaviour in the source, so the model asks for 13. */
  function EstimateHeadPose(pts: seq<Point>, sqrt: real -> real): (p: Pose)
    requires |pts| < MinLandmarks || |pts| >= FullLayoutSize
    ensures |pts| < MinLandmarks ==> p == ZeroPose
    ensures InRange(p)
  {
    if |pts| < MinLandmarks then
      ZeroPose
    else
      var leftEye := pts[4];
      var rightEye := pts[5];
      var nose := pts[10];
      var leftMouth := pts[11];
      var rightMouth := pts[12];
      var eyeCentre := Point((leftEye.x + rightEye.x) * 0.5, (leftEye.y + rightEye.y) * 0.5);
      var eyeDistance := sqrt(SqDist(rightEye, leftEye));
      var eyeVectorY := if eyeDistance > 0.0 then (rightEye.y - leftEye.y) / eyeDistance else rightEye.y - leftEye.y;
      var yaw := -eyeVectorY;
      var noseToEye := nose.y - eyeCentre.y;
      var expectedNose := eyeDistance * 0.8;
      var pitch := Div(noseToEye - expectedNose, expectedNose);
      var mouthCentreX := (leftMouth.x + rightMouth.x) * 0.5;
      var faceCentreX := (pts[0].x + pts[1].x) * 0.5;
      var roll := Div(mouthCentreX - faceCentreX, eyeDistance);
      Pose(StdClamp(-1.0, 1.0, pitch), Clamp(-1.0, 1.0, yaw), StdClamp(-0.5, 0.5, roll))
  }

  /** `detectHeadMovement`: some axis changed by strictly more than the threshold. */
  predicate DetectHeadMovement(current: Pose, previous: Pose) {
    Abs(current.pitch - previous.pitch) > MovementThreshold
    || Abs(current.yaw - previous.yaw) > MovementThreshold
    || Abs(current.roll - previous.roll) > MovementThreshold
  }

  /** The largest per-axis change between two poses. */
  function MaxAxisChange(a: Pose, b: Pose): (m: real)
    ensures m >= Abs(a.pitch - b.pitch) && m >= Abs(a.yaw - b.yaw) && m >= Abs(a.roll - b.roll)
    ensures m == Abs(a.pitch - b.pitch) || m == Abs(a.yaw - b.yaw) || m == Abs(a.roll - b.roll)
  {
    var p := Abs(a.pitch - b.pitch);
    var y := Abs(a.yaw - b.yaw);
    var r := Abs(a.roll - b.roll);
    if p >= y && p >= r then p else if y >= r then y else r
  }

  /** Movement is flagged exactly when the largest axis change strictly
      exceeds 0.1, so a change of exactly 0.1 never flags; the test does not
      depend on which pose is the earlier one. */
  lemma HeadMovementIsMaxChangeAboveThreshold(current: Pose, previous: Pose)
    ensures DetectHeadMovement(current, previous) <==> MaxAxisChange(current, previous) > MovementThreshold
    ensures DetectHeadMovement(current, previous) == DetectHeadMovement(previous, current)
    ensures MaxAxisChange(current, previous) == MovementThreshold ==> !DetectHeadMovement(current, previous)
  {
    assert Abs(current.pitch - previous.pitch) == Abs(previous.pitch - current.pitch);
    assert Abs(current.yaw - previous.yaw) == Abs(previous.yaw - current.yaw);
    assert Abs(current.roll - previous.roll) == Abs(previous.roll - current.roll);
  }

  /** A pose compared with itself never shows movement. */
  lemma NoMovementWithoutChange(p: Pose)
    ensures !DetectHeadMovement(p, p)
  {
  }

  /** The fallback 9-point landmark layout (fewer than two eye boxes) always
      gives the zero pose. */
  lemma FallbackLayoutGivesZeroPose(face: Rect, eyes: seq<Rect>, sqrt: real -> real)
    requires |eyes| < 2
    ensures EstimateHeadPose(DetectFaceLandmarks(face, eyes), sqrt) == ZeroPose
  {
  }

  /** On the engine's own 13-point layout the mouth corners are symmetric
      about the face centre line, so roll is 0 whenever the eye distance is
      non-zero, and 0/0 = NaN, clamped to 0.5, when it is zero. */
  lemma FullLayoutRoll(face: Rect, eyes: seq<Rect>, sqrt: real -> real)
    requires |eyes| >= 2
    ensures var lm := DetectFaceLandmarks(face, eyes);
      var d := sqrt(SqDist(lm[5], lm[4]));
      EstimateHeadPose(lm, sqrt).roll == (if d != 0.0 then 0.0 else 0.5)
  {
    var lm := DetectFaceLandmarks(face, eyes);
    LayoutFixedParts(face, eyes);
    assert (lm[11].x + lm[12].x) * 0.5 == (lm[0].x + lm[1].x) * 0.5;
  }

  /** With an exact, positive eye distance the yaw is the vertical offset
      of the left eye over the right, relative to the eye distance; the
      clamp never bites, so level eyes give yaw 0. */
  lemma YawIsRelativeEyeTilt(pts: seq<Point>, sqrt: real -> real)
    requires |pts| >= FullLayoutSize
    requires ExactRoot(sqrt, SqDist(pts[5], pts[4])) && sqrt(SqDist(pts[5], pts[4])) > 0.0
    ensures EstimateHeadPose(pts, sqrt).yaw * sqrt(SqDist(pts[5], pts[4])) == pts[4].y - pts[5].y
  {
    var u := pts[5].y - pts[4].y;
    var v := pts[5].x - pts[4].x;
    var r := sqrt(SqDist(pts[5], pts[4]));
    assert SqDist(pts[5], pts[4]) == u * u + v * v;
    ComponentBelowRoot(sqrt, u, v);
    UnitQuotient(u, r);
    assert (u / r) * r == u;
  }

  /** With a positive eye distance `d` the pitch compares the nose's drop
      below the eye centre with 0.8 d: the relative excess when it is within
      the clamp, 1 at twice the expected drop or more, and -1 at or above
      the eye line. */
  lemma PitchIsRelativeNoseDrop(pts: seq<Point>, sqrt: real -> real)
    requires |pts| >= FullLayoutSize
    requires sqrt(SqDist(pts[5], pts[4])) > 0.0
    ensures var expected := sqrt(SqDist(pts[5], pts[4])) * 0.8;
      var drop := pts[10].y - (pts[4].y + pts[5].y) * 0.5;
      var pitch := EstimateHeadPose(pts, sqrt).pitch;
      && (-1.0 < pitch < 1.0 ==> pitch * expected == drop - expected)
      && (drop >= 2.0 * expected ==> pitch == 1.0)
      && (drop <= 0.0 ==> pitch == -1.0)
  {
    var expected := sqrt(SqDist(pts[5], pts[4])) * 0.8;
    var drop := pts[10].y - (pts[4].y + pts[5].y) * 0.5;
    var q := Div(drop - expected, expected);
    assert q.Num? && q.v * expected == drop - expected;
    PositiveScale(q.v - 1.0, expected);
    PositiveScale(q.v + 1.0, expected);
    assert (q.v - 1.0) * expected == drop - 2.0 * expected;
    assert (q.v + 1.0) * expected == drop;
  }
}

=== FILE: core_shoulders.dfy ===
/** Shoulder-point selection and shoulder-movement detection of the C++
    engine (`detectShoulders` after contour extraction, and
    `detectShoulderMovement`, in core/src/tracking_engine.cpp).

    Blurring, edge detection and contour extraction are OpenCV's; each
    contour enters the model as its bounding box and its area. */
module Shoulders {
  import opened Geometry
  import opened RectOrder

  /** A contour found in the shoulder band, in band coordinates. */
  datatype Contour = Contour(bounds: Rect, area: real)

  const MinArea := 500.0
  const MaxArea := 10000.0
  const MinAspect := 0.5
  const MaxAspect := 3.0
  const MovementThreshold := 10.0

  /** The width-to-height ratio lies strictly between 0.5 and 3.0. For a zero
      height the source's double division gives +inf or NaN, neither of which
      is below 3.0, so such a box never qualifies. */
  predicate AspectWithin(b: Rect) {
    b.h != 0 && MinAspect < b.w as real / b.h as real < MaxAspect
  }

  predicate IsShoulderCandidate(c: Contour) {
    MinArea < c.area < MaxArea && AspectWithin(c.bounds)
  }

  /** Bounding boxes of the contours that pass both filters, in contour order. */
  function Candidates(cs: seq<Contour>): (r: seq<Rect>)
    ensures |r| <= |cs|
    ensures forall i :: 0 <= i < |r| ==> exists k :: 0 <= k < |cs| && IsShoulderCandidate(cs[k]) && cs[k].bounds == r[i]
    ensures forall k :: 0 <= k < |cs| && IsShoulderCandidate(cs[k]) ==> cs[k].bounds in r
  {
    if |cs| == 0 then
      []
    else
      var rest := Candidates(cs[1..]);
      assert forall k :: 1 <= k < |cs| ==> cs[k] == cs[1..][k - 1];
      if IsShoulderCandidate(cs[0]) then [cs[0].bounds] + rest else rest
  }

  /** Each contour contributes its own box when it passes, even when an
      equal box is already a candidate: appending one contour appends at
      most its box. */
  lemma {:induction false} CandidatesAppend(cs: seq<Contour>, c: Contour)
    ensures Candidates(cs + [c]) == Candidates(cs) + (if IsShoulderCandidate(c) then [c.bounds] else [])
    decreases |cs|
  {
    if |cs| > 0 {
      assert (cs + [c])[0] == cs[0];
      assert (cs + [c])[1..] == cs[1..] + [c];
      CandidatesAppend(cs[1..], c);
    }
  }

  /** Top row of the shoulder band: `frame_height * 0.6f` truncated to an int. */
  function BandTop(height: int): (top: int)
    requires height >= 0
    ensures 0 <= top <= height
    ensures top as real <= height as real * 0.6 < top as real + 1.0
  {
    (height as real * 0.6).Floor
  }

  /** The centre of a candidate box, moved from band to frame coordinates. */
  function ShoulderPoint(top: int, b: Rect): Point {
    Point(b.x as real + b.w as real / 2.0, (top + b.y) as real + b.h as real / 2.0)
  }

  /** The fixed positions used when fewer than two candidates survive. */
  function FallbackShoulders(width: int, height: int): seq<Point> {
    [Point(width as real * 0.25, height as real * 0.8), Point(width as real * 0.75, height as real * 0.8)]
  }

  /** `detectShoulders` from the contours on: filter, sort by `x`, and take the
      first and the last candidate, or fall back to fixed positions. */
  function SelectShoulders(width: int, height: int, contours: seq<Contour>): (pts: seq<Point>)
    requires height >= 0
    ensures |pts| == 2
    ensures |Candidates(contours)| < 2 ==> pts == FallbackShoulders(width, height)
  {
    var candidates := SortByX(Candidates(contours));
    if |candidates| >= 2 then
      var top := BandTop(height);
      [ShoulderPoint(top, candidates[0]), ShoulderPoint(top, candidates[|candidates| - 1])]
    else
      FallbackShoulders(width, height)
  }

  /** `a` and `b` are candidates, and every candidate box starts between them. */
  predicate ExtremeCandidates(c: seq<Rect>, a: Rect, b: Rect) {
    a in c && b in c && forall e :: e in c ==> a.x <= e.x <= b.x
  }

  /** With two or more candidates, the left point is the frame-coordinate
      centre of a surviving contour whose box starts furthest left, and the
      right point of one whose box starts furthest right. */
  lemma ShouldersAreExtremeCandidates(width: int, height: int, contours: seq<Contour>)
    requires height >= 0 && |Candidates(contours)| >= 2
    ensures var pts := SelectShoulders(width, height, contours);
      exists a, b :: ExtremeCandidates(Candidates(contours), a, b)
        && pts[0] == ShoulderPoint(BandTop(height), a)
        && pts[1] == ShoulderPoint(BandTop(height), b)
  {
    var c := Candidates(contours);
    var s := SortByX(c);
    SortExtremes(c);
    var top := BandTop(height);
    var pts := SelectShoulders(width, height, contours);
    assert pts == [ShoulderPoint(top, s[0]), ShoulderPoint(top, s[|s| - 1])];
    assert ExtremeCandidates(c, s[0], s[|s| - 1]);
  }

  /** `detectShoulderMovement`: with exactly two points on both sides, either
      point moved by more than 10 pixels. The norm comparison is stated on
      squared distances (`norm > 10` exactly when the squared norm exceeds 100). */
  function DetectShoulderMovement(current: seq<Point>, previous: seq<Point>): (moving: bool)
    ensures moving ==> |current| == 2 && |previous| == 2
  {
    if |current| != 2 || |previous| != 2 then
      false
    else
      var limit := MovementThreshold * MovementThreshold;
      SqDist(current[0], previous[0]) > limit || SqDist(current[1], previous[1]) > limit
  }

  /** The squared comparison agrees with the source's comparison of the
      Euclidean norms, for an exact square root: movement is flagged exactly
      when one of the two points moved strictly more than 10 pixels. */
  lemma ShoulderMovementIsNormAboveThreshold(current: seq<Point>, previous: seq<Point>, sqrt: real -> real)
    requires |current| == 2 && |previous| == 2
    requires ExactRoot(sqrt, SqDist(current[0], previous[0]))
    requires ExactRoot(sqrt, SqDist(current[1], previous[1]))
    ensures DetectShoulderMovement(current, previous) <==>
      sqrt(SqDist(current[0], previous[0])) > MovementThreshold || sqrt(SqDist(current[1], previous[1])) > MovementThreshold
  {
    RootAboveIff(sqrt, SqDist(current[0], previous[0]), MovementThreshold);
    RootAboveIff(sqrt, SqDist(current[1], previous[1]), MovementThreshold);
  }

  /** Points that did not move, or moved exactly 10 pixels, never flag. */
  lemma ShoulderMovementAtThreshold(current: seq<Point>, previous: seq<Point>)
    requires |current| == 2 && |previous| == 2
    requires SqDist(current[0], previous[0]) <= 100.0 && SqDist(current[1], previous[1]) <= 100.0
    ensures !DetectShoulderMovement(current, previous)
  {
  }
}

=== FILE: geometry.dfy ===
/** Plane geometry shared by both engines: OpenCV's `cv::Point2f` and `cv::Rect`,
    Python's `(x, y, w, h)` tuples, absolute value, clamping and squared distances.

    Floating-point values are modelled as exact reals. The square root behind
    `cv::norm` and `np.sqrt` is not computed by the model: the members that need
    it take the platform's routine as a parameter `sqrt`, and their properties
    are stated for an exact root (`ExactRoot`). */
module Geometry {

  /** A point with real coordinates (`cv::Point2f`). */
  datatype Point = Point(x: real, y: real)

  /** An axis-aligned rectangle with integer origin and extent (`cv::Rect`, or a Python `(x, y, w, h)` tuple). */
  datatype Rect = Rect(x: int, y: int, w: int, h: int)

  /** The default-constructed `cv::Rect()`: origin and extent all zero. */
  const EmptyRect := Rect(0, 0, 0, 0)

  /** A rectangle counts as detected when both its extents are positive. */
  predicate IsDetected(r: Rect) {
    r.w > 0 && r.h > 0
  }

  function Abs(v: real): (a: real)
    ensures a >= 0.0
    ensures a == v || a == -v
  {
    if v < 0.0 then -v else v
  }

  /** `std::max(lo, std::min(hi, v))` on finite values. */
  function Clamp(lo: real, hi: real, v: real): (c: real)
    requires lo <= hi
    ensures lo <= c <= hi
    ensures lo <= v <= hi ==> c == v
    ensures v < lo ==> c == lo
    ensures hi < v ==> c == hi
  {
    if v < hi then (if lo < v then v else lo) else hi
  }

  /** The squared Euclidean distance between two points. */
  function SqDist(a: Point, b: Point): (d: real)
    ensures d >= 0.0
  {
    var dx := a.x - b.x;
    var dy := a.y - b.y;
    SquareNonneg(dx);
    SquareNonneg(dy);
    dx * dx + dy * dy
  }

  /** `sqrt` returns the exact non-negative square root of `q`. */
  predicate ExactRoot(sqrt: real -> real, q: real) {
    sqrt(q) >= 0.0 && sqrt(q) * sqrt(q) == q
  }

  lemma SquareNonneg(v: real)
    ensures v * v >= 0.0
  {
    if v < 0.0 {
      assert v * v == (-v) * (-v);
    }
  }

  /** Comparing a norm with a non-negative threshold is the same as comparing
      the squared norm with the squared threshold. */
  lemma RootAboveIff(sqrt: real -> real, q: real, t: real)
    requires ExactRoot(sqrt, q) && t >= 0.0
    ensures sqrt(q) > t <==> q > t * t
  {
    var r := sqrt(q);
    if r > t {
      assert r * r > t * t by { MulStrict(t, r); }
    } else {
      assert r * r <= t * t by { MulMono(r, t); }
    }
  }

  /** A coordinate difference never exceeds the norm of its vector. */
  lemma ComponentBelowRoot(sqrt: real -> real, u: real, v: real)
    requires ExactRoot(sqrt, u * u + v * v)
    ensures Abs(u) <= sqrt(u * u + v * v)
  {
    var r := sqrt(u * u + v * v);
    var a := Abs(u);
    assert a * a == u * u;
    assert v * v >= 0.0;
    if r < a {
      MulStrict(r, a);
      assert false;
    }
  }

  lemma MulStrict(a: real, b: real)
    requires 0.0 <= a < b
    ensures a * a < b * b
  {
    assert a * (b - a) >= 0.0;
    assert b * (b - a) > 0.0;
  }

  lemma MulMono(a: real, b: real)
    requires 0.0 <= a <= b
    ensures a * a <= b * b
  {
    assert a * (b - a) >= 0.0;
    assert b * (b - a) >= 0.0;
  }

  /** A quotient whose magnitude is at most its positive divisor lies in [-1, 1]. */
  lemma UnitQuotient(a: real, r: real)
    requires r > 0.0 && Abs(a) <= r
    ensures -1.0 <= a / r <= 1.0
  {
    var q := a / r;
    assert q * r == a;
    if q > 1.0 {
      MulAboveOne(q, r);
    }
    if q < -1.0 {
      MulBelowMinusOne(q, r);
    }
  }

  lemma MulAboveOne(q: real, r: real)
    requires q > 1.0 && r > 0.0
    ensures q * r > r
  {
    var e := q - 1.0;
    assert e * r > 0.0;
    assert q * r == e * r + r;
  }

  lemma MulBelowMinusOne(q: real, r: real)
    requires q < -1.0 && r > 0.0
    ensures q * r < -r
  {
    var e := -1.0 - q;
    assert e * r > 0.0;
    assert q * r == -(e * r) - r;
  }

  /** Scaling by a positive factor keeps the sign. */
  lemma PositiveScale(x: real, c: real)
    requires c > 0.0
    ensures x > 0.0 <==> x * c > 0.0
  {
    if x <= 0.0 {
      assert (-x) * c >= 0.0;
    }
  }
}

=== FILE: ieee.dfy ===
/** The few IEEE-754 corner cases the engine's float arithmetic can reach.

    Finite values are exact reals (rounding is not modelled). A division by
    zero yields an infinity or NaN instead of failing, and `std::min`,
    `std::max` and `std::abs` comparisons treat NaN as IEEE comparisons do
    (every ordered comparison with NaN is false). */
module Ieee {
  import opened Geometry

  datatype Float = Num(v: real) | PosInf | NegInf | NaN

  /** The quotient `a / b` of two finite values. Every divisor in the engine
      is a norm or a non-negative multiple of one, so a zero divisor is +0. */
  function Div(a: real, b: real): (q: Float)
    ensures q.Num? <==> b != 0.0
    ensures q.Num? ==> q.v * b == a
    ensures q == NaN <==> a == 0.0 && b == 0.0
    ensures q == PosInf <==> a > 0.0 && b == 0.0
    ensures q == NegInf <==> a < 0.0 && b == 0.0
  {
    if b != 0.0 then Num(a / b)
    else if a > 0.0 then PosInf
    else if a < 0.0 then NegInf
    else NaN
  }

  /** IEEE addition: NaN absorbs, and opposite infinities give NaN. */
  function Add(a: Float, b: Float): (s: Float)
    ensures a == NaN || b == NaN ==> s == NaN
    ensures a.Num? && b.Num? ==> s == Num(a.v + b.v)
    ensures s.Num? ==> a.Num? && b.Num?
  {
    match (a, b)
    case (Num(x), Num(y)) => Num(x + y)
    case (NaN, _) => NaN
    case (_, NaN) => NaN
    case (PosInf, NegInf) => NaN
    case (NegInf, PosInf) => NaN
    case (PosInf, _) => PosInf
    case (_, PosInf) => PosInf
    case (NegInf, _) => NegInf
    case (_, NegInf) => NegInf
  }

  /** `(a - c) * k` for finite constants `c` and `k > 0`: a finite value
      moves, an infinity or NaN stays what it is. */
  function Affine(a: Float, c: real, k: real): (r: Float)
    requires k > 0.0
    ensures a.Num? ==> r == Num((a.v - c) * k)
    ensures !a.Num? ==> r == a
  {
    if a.Num? then Num((a.v - c) * k) else a
  }

  /** `std::max(lo, std::min(hi, x))`. `std::min(hi, x)` is `x < hi ? x : hi`
      and `std::max(lo, m)` is `lo < m ? m : lo`, so NaN and +inf end at `hi`
      and -inf at `lo`. */
  function StdClamp(lo: real, hi: real, x: Float): (c: real)
    requires lo <= hi
    ensures lo <= c <= hi
    ensures x.Num? && lo <= x.v <= hi ==> c == x.v
    ensures x == NaN || x == PosInf ==> c == hi
    ensures x == NegInf ==> c == lo
  {
    match x
    case Num(v) => Clamp(lo, hi, v)
    case NegInf => lo
    case _ => hi
  }

  /** `std::abs(x) < t`: false for NaN and the infinities. */
  predicate AbsBelow(x: Float, t: real) {
    x.Num? && Abs(x.v) < t
  }
}

=== FILE: py_eye_tracker.dfy ===
/** The desktop application's `EyeTracker`: eye detection guard, the
    simplified gaze estimate and the focus test
    (python_desktop/tracking/eye_tracker.py).

    Whether the eye cascade loads and what `detectMultiScale` returns on the
    face region are inputs. */
module PyEyeTracker {
  import opened Wrappers
  import opened Geometry
  import opened RectOrder
  import opened PyValues

  /** A frame's pixel grid; its `size` is zero exactly when it has no rows or
      no columns. */
  datatype Frame = Frame(rows: nat, cols: nat)

  /** Gaze angles in degrees. */
  datatype Angles = Angles(x: real, y: real)

  const Neutral := Angles(0.0, 0.0)
  const MaxAngle := 30.0
  const FocusThreshold := 10.0

  /** Number of pixels of `frame[y:y+h, x:x+w]`, per channel. */
  function FaceRegionSize(frame: Frame, face: Rect): (n: nat)
    ensures n == 0 <==> (SliceLength(face.y, face.y + face.h, frame.rows) == 0
                         || SliceLength(face.x, face.x + face.w, frame.cols) == 0)
  {
    SliceLength(face.y, face.y + face.h, frame.rows) * SliceLength(face.x, face.x + face.w, frame.cols)
  }

  /** `detect_eyes`: no eyes without a cascade or on an empty region,
      otherwise whatever the cascade found. */
  function DetectEyes(cascadeLoaded: bool, regionSize: nat, found: seq<Rect>): (eyes: seq<Rect>)
    ensures !cascadeLoaded || regionSize == 0 ==> eyes == []
    ensures cascadeLoaded && regionSize > 0 ==> eyes == found
  {
    if !cascadeLoaded || regionSize == 0 then [] else found
  }

  /** Centre of an eye box with Python's floor division. */
  function EyeCentre(e: Rect): (c: (int, int))
    ensures e.w >= 1 ==> e.x <= c.0 < e.x + e.w
    ensures e.h >= 1 ==> e.y <= c.1 < e.y + e.h
  {
    (e.x + e.w / 2, e.y + e.h / 2)
  }

  /** Gaze from a left and a right eye box. The face centre `w // 2` (and
      `h // 2`) is the divisor, so a face narrower or shorter than 2 pixels
      raises `ZeroDivisionError`. */
  function GazeOfPair(face: Rect, leftEye: Rect, rightEye: Rect): (r: Result<Angles, PyError>)
    ensures r.Failure? <==> face.w / 2 == 0 || face.h / 2 == 0
    ensures r.Failure? ==> r.error == ZeroDivisionError
  {
    var left := EyeCentre(leftEye);
    var right := EyeCentre(rightEye);
    var centreX := face.w / 2;
    var centreY := face.h / 2;
    if centreX == 0 || centreY == 0 then
      Failure(ZeroDivisionError)
    else
      Success(Angles(AxisAngle(left.0, right.0, centreX), AxisAngle(left.1, right.1, centreY)))
  }

  /** One gaze angle: the floor-averaged eye centre's offset from the face
      centre, relative to the face centre, scaled to 30 degrees. */
  function AxisAngle(leftCentre: int, rightCentre: int, faceCentre: int): real
    requires faceCentre != 0
  {
    ((leftCentre + rightCentre) / 2 - faceCentre) as real / faceCentre as real * MaxAngle
  }

  /** The gaze of the two leftmost of at least two eye boxes. */
  function GazeFromEyes(face: Rect, eyes: seq<Rect>): (r: Result<Angles, PyError>)
    requires |eyes| >= 2
    ensures r.Failure? <==> face.w / 2 == 0 || face.h / 2 == 0
  {
    var sorted := SortByX(eyes);
    GazeOfPair(face, sorted[0], sorted[1])
  }

  /** `estimate_gaze`: the gaze of the two leftmost detected eyes, or the
      neutral gaze when fewer than two were found. */
  function EstimateGaze(cascadeLoaded: bool, frame: Frame, face: Rect, found: seq<Rect>): (r: Result<Angles, PyError>)
    ensures |DetectEyes(cascadeLoaded, FaceRegionSize(frame, face), found)| < 2 ==> r == Success(Neutral)
    ensures r.Failure? <==> |DetectEyes(cascadeLoaded, FaceRegionSize(frame, face), found)| >= 2
                            && (face.w / 2 == 0 || face.h / 2 == 0)
    ensures r.Failure? ==> r.error == ZeroDivisionError
  {
    var eyes := DetectEyes(cascadeLoaded, FaceRegionSize(frame, face), found);
    if |eyes| >= 2 then GazeFromEyes(face, eyes) else Success(Neutral)
  }

  /** `are_eyes_focused` with its default threshold of 10 degrees. */
  predicate AreEyesFocused(a: Angles) {
    Abs(a.x) < FocusThreshold && Abs(a.y) < FocusThreshold
  }

  /** The neutral gaze counts as focused: a face in which no two eyes were
      found is reported as looking at the screen. */
  lemma NeutralGazeIsFocused()
    ensures AreEyesFocused(Neutral)
  {
  }

  /** Over the whole domain the 10-degree test on one axis asks the
      offset of the averaged eye centre from the face centre to be strictly
      less than a third of the face half-size. */
  lemma OffsetFocusedIff(offset: int, faceCentre: int)
    requires faceCentre > 0
    ensures Abs(offset as real / faceCentre as real * MaxAngle) < FocusThreshold <==> -faceCentre < 3 * offset < faceCentre
  {
    QuotientFocusedIff(offset as real, faceCentre as real);
  }

  lemma QuotientFocusedIff(a: real, c: real)
    requires c > 0.0
    ensures Abs(a / c * MaxAngle) < FocusThreshold <==> -c < 3.0 * a < c
  {
    var q := a / c;
    assert q * c == a;
    assert (1.0 - 3.0 * q) * c == c - 3.0 * a;
    assert (3.0 * q + 1.0) * c == 3.0 * a + c;
    PositiveScale(1.0 - 3.0 * q, c);
    PositiveScale(3.0 * q + 1.0, c);
    assert a / c * MaxAngle == 30.0 * q;
    assert Abs(30.0 * q) < FocusThreshold <==> 1.0 - 3.0 * q > 0.0 && 3.0 * q + 1.0 > 0.0;
  }

  /** The focus test on the gaze of an eye pair, in pixels: both averaged
      eye centres lie strictly within a third of the face half-size from
      the face centre. */
  lemma PairFocusedIff(face: Rect, l: Rect, r: Rect)
    requires face.w / 2 > 0 && face.h / 2 > 0
    ensures GazeOfPair(face, l, r).Success?
    ensures var cx := face.w / 2;
      var cy := face.h / 2;
      var ox := (EyeCentre(l).0 + EyeCentre(r).0) / 2 - cx;
      var oy := (EyeCentre(l).1 + EyeCentre(r).1) / 2 - cy;
      AreEyesFocused(GazeOfPair(face, l, r).value) <==> -cx < 3 * ox < cx && -cy < 3 * oy < cy
  {
    GazeOfPairValue(face, l, r);
    OffsetFocusedIff((EyeCentre(l).0 + EyeCentre(r).0) / 2 - face.w / 2, face.w / 2);
    OffsetFocusedIff((EyeCentre(l).1 + EyeCentre(r).1) / 2 - face.h / 2, face.h / 2);
  }

  /** The box lies inside the face region and is not empty. */
  predicate InsideFace(face: Rect, e: Rect) {
    0 <= e.x && e.w >= 1 && e.x + e.w <= face.w && 0 <= e.y && e.h >= 1 && e.y + e.h <= face.h
  }

  /** If the eyes lie inside the face box, which is at least 2 pixels in
      each direction, the gaze angles stay within +-30 degrees, as the
      source's comment promises. */
  lemma GazeWithinThirtyDegrees(face: Rect, eyes: seq<Rect>)
    requires |eyes| >= 2 && face.w >= 2 && face.h >= 2
    requires forall e :: e in eyes ==> InsideFace(face, e)
    ensures GazeFromEyes(face, eyes).Success?
    ensures -MaxAngle <= GazeFromEyes(face, eyes).value.x <= MaxAngle
    ensures -MaxAngle <= GazeFromEyes(face, eyes).value.y <= MaxAngle
  {
    var sorted := SortByX(eyes);
    InPermutation(sorted, eyes, 0);
    InPermutation(sorted, eyes, 1);
    PairWithinThirtyDegrees(face, sorted[0], sorted[1]);
  }

  lemma PairWithinThirtyDegrees(face: Rect, l: Rect, r: Rect)
    requires face.w >= 2 && face.h >= 2 && InsideFace(face, l) && InsideFace(face, r)
    ensures GazeOfPair(face, l, r).Success?
    ensures -MaxAngle <= GazeOfPair(face, l, r).value.x <= MaxAngle
    ensures -MaxAngle <= GazeOfPair(face, l, r).value.y <= MaxAngle
  {
    assert face.w / 2 != 0 && face.h / 2 != 0;
    var ax := AxisAngle(l.x + l.w / 2, r.x + r.w / 2, face.w / 2);
    var ay := AxisAngle(l.y + l.h / 2, r.y + r.h / 2, face.h / 2);
    assert -MaxAngle <= ax <= MaxAngle by {
      AverageWithinHalf(l.x, l.w, r.x, r.w, face.w);
    }
    assert -MaxAngle <= ay <= MaxAngle by {
      AverageWithinHalf(l.y, l.h, r.y, r.h, face.h);
    }
    GazeOfPairValue(face, l, r);
  }

  lemma GazeOfPairValue(face: Rect, l: Rect, r: Rect)
    requires face.w / 2 != 0 && face.h / 2 != 0
    ensures GazeOfPair(face, l, r) == Success(Angles(AxisAngle(l.x + l.w / 2, r.x + r.w / 2, face.w / 2),
                                                     AxisAngle(l.y + l.h / 2, r.y + r.h / 2, face.h / 2)))
  {
  }

  /** One axis of the bound: the averaged centre offset divided by the face
      half-size lies in [-1, 1]. */
  lemma AverageWithinHalf(lx: int, lw: int, rx: int, rw: int, size: int)
    requires size >= 2 && 0 <= lx && lw >= 1 && lx + lw <= size && 0 <= rx && rw >= 1 && rx + rw <= size
    ensures size / 2 != 0
    ensures -MaxAngle <= AxisAngle(lx + lw / 2, rx + rw / 2, size / 2) <= MaxAngle
  {
    var c := size / 2;
    var avg := (lx + lw / 2 + rx + rw / 2) / 2;
    assert 0 <= avg <= size - 1;
    assert -c <= avg - c <= c;
    UnitQuotient((avg - c) as real, c as real);
  }

  /** Eye boxes further right than all of at least two others do not change
      the estimate: only the two leftmost eyes are used. */
  lemma ExtraEyesToTheRightIgnored(face: Rect, eyes: seq<Rect>, extra: seq<Rect>)
    requires |eyes| >= 2 && AllLeftOf(eyes, extra)
    ensures GazeFromEyes(face, eyes + extra) == GazeFromEyes(face, eyes)
  {
    SortAppendRight(eyes, extra);
  }
}

=== FILE: py_face_detector.dfy ===
/** The desktop application's `FaceDetector`: backend selection and the
    choice of one face among the cascade's detections
    (python_desktop/tracking/face_detector.py).

    Whether the Haar cascade file loads, and what `detectMultiScale`
    returns, are inputs. */
module PyFaceDetector {
  import opened Wrappers
  import opened Geometry

  /** The detector's attributes. No YOLO model is ever loaded, so the
      `yolo_model` attribute is always `None` and is not stored. */
  datatype Detector = Detector(backend: string, haarLoaded: bool, activeBackend: Option<string>)

  /** The configured backend of the desktop application. */
  const ConfiguredBackend := "auto"

  /** `__init__` with `_initialize_detectors`: the Haar cascade is only
      attempted for "auto" and "haar"; "auto" resolves to "yolo" if a YOLO
      model exists (never) and else to "haar" if the cascade loaded; any
      other name is taken as the active backend unchecked. */
  function InitializeDetectors(backend: string, haarLoads: bool): (d: Detector)
    ensures d.backend == backend
    ensures d.haarLoaded <==> haarLoads && (backend == "auto" || backend == "haar")
    ensures backend != "auto" ==> d.activeBackend == Some(backend)
    ensures backend == "auto" ==> (d.activeBackend == Some("haar") <==> haarLoads)
    ensures backend == "auto" ==> (d.activeBackend == None <==> !haarLoads)
  {
    var haar := haarLoads && (backend == "auto" || backend == "haar");
    var active := if backend == "auto" then (if haar then Some("haar") else None) else Some(backend);
    Detector(backend, haar, active)
  }

  /** Area of a box as `rect[2] * rect[3]`. */
  function Area(r: Rect): int {
    r.w * r.h
  }

  /** Index of the first box of largest area, as Python's `max` with a key
      returns the first maximal element. */
  function LargestIndex(faces: seq<Rect>): (i: nat)
    requires |faces| > 0
    ensures i < |faces|
    ensures forall k :: 0 <= k < |faces| ==> Area(faces[k]) <= Area(faces[i])
    ensures forall k :: 0 <= k < i ==> Area(faces[k]) < Area(faces[i])
  {
    if |faces| == 1 then
      0
    else
      var j := LargestIndex(faces[..|faces| - 1]);
      if Area(faces[|faces| - 1]) > Area(faces[j]) then |faces| - 1 else j
  }

  /** `_detect_face_haar` after the cascade ran. */
  function DetectFaceHaar(faces: seq<Rect>): (r: Option<Rect>)
    ensures r.None? <==> |faces| == 0
    ensures r.Some? ==> r.value in faces && forall f :: f in faces ==> Area(f) <= Area(r.value)
  {
    if |faces| == 0 then None else Some(faces[LargestIndex(faces)])
  }

  /** `detect_face`: nothing for a missing or empty frame; otherwise the
      active backend decides, and only the Haar path can find a face. */
  function DetectFace(d: Detector, frameEmpty: bool, haarFaces: seq<Rect>): (r: Option<Rect>)
    ensures r.Some? ==> !frameEmpty && d.activeBackend == Some("haar") && d.haarLoaded
    ensures r.Some? ==> r.value in haarFaces
  {
    if frameEmpty then
      None
    else if d.activeBackend == Some("haar") && d.haarLoaded then
      DetectFaceHaar(haarFaces)
    else
      None
  }

  /** A detector built for "yolo", or for any name other than "auto" and
      "haar", never reports a face. */
  lemma OnlyHaarCanDetect(backend: string, haarLoads: bool, frameEmpty: bool, faces: seq<Rect>)
    requires backend != "auto" && backend != "haar"
    ensures DetectFace(InitializeDetectors(backend, haarLoads), frameEmpty, faces) == None
  {
  }

  /** "auto" and "haar" behave identically whether or not the cascade loads. */
  lemma AutoIsHaar(haarLoads: bool, frameEmpty: bool, faces: seq<Rect>)
    ensures DetectFace(InitializeDetectors("auto", haarLoads), frameEmpty, faces)
         == DetectFace(InitializeDetectors("haar", haarLoads), frameEmpty, faces)
  {
  }

  /** Box `i` has the largest area and every earlier box a smaller one. */
  predicate FirstLargestAt(faces: seq<Rect>, i: int) {
    0 <= i < |faces|
    && (forall k :: 0 <= k < |faces| ==> Area(faces[k]) <= Area(faces[i]))
    && (forall k :: 0 <= k < i ==> Area(faces[k]) < Area(faces[i]))
  }

  /** With a loaded cascade and a non-empty frame, a face is reported exactly
      when the cascade found one, and it is the first of the largest. */
  lemma HaarPicksFirstLargest(frameEmpty: bool, faces: seq<Rect>)
    requires !frameEmpty && |faces| > 0
    ensures var r := DetectFace(InitializeDetectors("haar", true), frameEmpty, faces);
      r.Some? && exists i :: FirstLargestAt(faces, i) && r.value == faces[i]
  {
    var i := LargestIndex(faces);
    assert DetectFace(InitializeDetectors("haar", true), frameEmpty, faces) == Some(faces[i]);
    assert FirstLargestAt(faces, i);
  }

  /** A pixel position with integer coordinates. */
  datatype Pixel = Pixel(x: int, y: int)

  /** `get_face_center`, with Python's floor division by 2. */
  function FaceCenter(r: Rect): (c: Pixel)
    ensures r.w >= 0 ==> r.x <= c.x <= r.x + r.w && 2 * c.x <= 2 * r.x + r.w < 2 * c.x + 2
    ensures r.h >= 0 ==> r.y <= c.y <= r.y + r.h && 2 * c.y <= 2 * r.y + r.h < 2 * c.y + 2
  {
    Pixel(r.x + r.w / 2, r.y + r.h / 2)
  }
}

=== FILE: py_test_session.dfy ===
/** The desktop application's test-session records: configuration, the
    collected tracking points, the scoring in `calculate_results` and the
    dictionary forms (python_desktop/models/test_session.py).

    The clock is a parameter: `add_tracking_point` receives the timestamp
    `datetime.now().isoformat()` would give. */
module PyTestSession {
  import opened Wrappers
  import opened Geometry
  import opened PyValues

  datatype TestType = Random | Horizontal | Vertical

  /** The enum member's `.value`. */
  function TestTypeValue(t: TestType): string {
    match t
    case Random => "random"
    case Horizontal => "horizontal"
    case Vertical => "vertical"
  }

  /** `TestType(value)`: the member with that value, if any. */
  function TestTypeOf(v: string): (t: Option<TestType>)
    ensures t.Some? ==> TestTypeValue(t.value) == v
  {
    if v == "random" then Some(Random)
    else if v == "horizontal" then Some(Horizontal)
    else if v == "vertical" then Some(Vertical)
    else None
  }

  /** The stored value identifies the member. */
  lemma TestTypeValueRoundTrip(t: TestType)
    ensures TestTypeOf(TestTypeValue(t)) == Some(t)
  {
  }

  datatype TestConfiguration = TestConfiguration(duration: int, testType: TestType, circleSize: int, movementSpeed: int)

  /** `TestConfiguration.to_dict`: every field under its own key, the test
      type by its value. */
  function ConfigurationToDict(c: TestConfiguration): (d: Dict)
    ensures d.Keys == {"duration", "test_type", "circle_size", "movement_speed"}
    ensures d["duration"] == VInt(c.duration)
    ensures d["test_type"].VStr? && TestTypeOf(d["test_type"].s) == Some(c.testType)
    ensures d["circle_size"] == VInt(c.circleSize) && d["movement_speed"] == VInt(c.movementSpeed)
  {
    TestTypeValueRoundTrip(c.testType);
    map["duration" := VInt(c.duration), "test_type" := VStr(TestTypeValue(c.testType)),
        "circle_size" := VInt(c.circleSize), "movement_speed" := VInt(c.movementSpeed)]
  }

  /** Reads a configuration back from its dictionary form; `None` when a key
      is missing, holds a value of the wrong kind, or names no test type. */
  function ConfigurationFromDict(d: Dict): Option<TestConfiguration> {
    var duration :- IntAt(d, "duration");
    var typeValue :- StrAt(d, "test_type");
    var testType :- TestTypeOf(typeValue);
    var circleSize :- IntAt(d, "circle_size");
    var movementSpeed :- IntAt(d, "movement_speed");
    Some(TestConfiguration(duration, testType, circleSize, movementSpeed))
  }

  /** The configuration's dictionary form loses nothing. */
  lemma ConfigurationRoundTrip(c: TestConfiguration)
    ensures ConfigurationFromDict(ConfigurationToDict(c)) == Some(c)
  {
    var d := ConfigurationToDict(c);
    assert IntAt(d, "duration") == Some(c.duration);
    assert StrAt(d, "test_type") == Some(TestTypeValue(c.testType));
    TestTypeValueRoundTrip(c.testType);
    assert IntAt(d, "circle_size") == Some(c.circleSize);
    assert IntAt(d, "movement_speed") == Some(c.movementSpeed);
  }

  datatype TestResults = TestResults(accuracy: real, reactionTime: real, movementAnalysis: string, overallAssessment: string)

  /** `TestResults.to_dict`: every field unchanged under its own key. */
  function ResultsToDict(r: TestResults): (d: Dict)
    ensures d.Keys == {"accuracy", "reaction_time", "movement_analysis", "overall_assessment"}
    ensures d["accuracy"] == VReal(r.accuracy) && d["reaction_time"] == VReal(r.reactionTime)
    ensures d["movement_analysis"] == VStr(r.movementAnalysis) && d["overall_assessment"] == VStr(r.overallAssessment)
  {
    map["accuracy" := VReal(r.accuracy), "reaction_time" := VReal(r.reactionTime),
        "movement_analysis" := VStr(r.movementAnalysis), "overall_assessment" := VStr(r.overallAssessment)]
  }

  /** Reads results back from their dictionary form; `None` when a key is
      missing or holds a value of the wrong kind. */
  function ResultsFromDict(d: Dict): Option<TestResults> {
    var accuracy :- RealAt(d, "accuracy");
    var reactionTime :- RealAt(d, "reaction_time");
    var movementAnalysis :- StrAt(d, "movement_analysis");
    var overallAssessment :- StrAt(d, "overall_assessment");
    Some(TestResults(accuracy, reactionTime, movementAnalysis, overallAssessment))
  }

  /** The results' dictionary form loses nothing. */
  lemma ResultsRoundTrip(r: TestResults)
    ensures ResultsFromDict(ResultsToDict(r)) == Some(r)
  {
    var d := ResultsToDict(r);
    assert RealAt(d, "accuracy") == Some(r.accuracy);
    assert RealAt(d, "reaction_time") == Some(r.reactionTime);
    assert StrAt(d, "movement_analysis") == Some(r.movementAnalysis);
    assert StrAt(d, "overall_assessment") == Some(r.overallAssessment);
  }

  /** One entry of `tracking_data`: the stored timestamp, the tracking
      dictionary as given, and the target position. */
  datatype TrackingPoint = TrackingPoint(timestamp: Timestamp, tracking: Dict, targetX: real, targetY: real)

  datatype TestSession = TestSession(
    sessionId: Option<int>,
    userId: int,
    configuration: TestConfiguration,
    startedAt: Timestamp,
    completedAt: Option<Timestamp>,
    results: Option<TestResults>,
    trackingData: seq<TrackingPoint>)

  predicate IsComplete(s: TestSession) {
    s.completedAt.Some?
  }

  /** `add_tracking_point`, stamped with the current time `now`. */
  function AddTrackingPoint(s: TestSession, now: Timestamp, tracking: Dict, targetX: real, targetY: real): (s': TestSession)
    ensures |s'.trackingData| == |s.trackingData| + 1
    ensures s'.trackingData[..|s.trackingData|] == s.trackingData
    ensures s'.trackingData[|s.trackingData|] == TrackingPoint(now, tracking, targetX, targetY)
    ensures s'.results == s.results && s'.completedAt == s.completedAt && s'.configuration == s.configuration
  {
    s.(trackingData := s.trackingData + [TrackingPoint(now, tracking, targetX, targetY)])
  }

  const ErrorScale := 1000.0
  const PlaceholderReactionTime := 250.0

  /** A point is scored when its tracking dictionary has a truthy
      "face_detected" and a truthy "eyes_focused". */
  predicate IsScored(p: TrackingPoint) {
    Truthy(Get(p.tracking, "face_detected", VNone)) && Truthy(Get(p.tracking, "eyes_focused", VNone))
  }

  /** The error of one point: |gaze x - target x| + |gaze y - target y|,
      with missing gaze angles read as 0.0. `None` for a point that is not
      scored; `TypeError` when a gaze angle is not a number. */
  function PointError(p: TrackingPoint): (r: Result<Option<real>, PyError>)
    ensures r.Failure? ==> r.error == TypeError && IsScored(p)
    ensures r.Success? ==> (r.value.Some? <==> IsScored(p))
    ensures r.Success? && r.value.Some? ==> r.value.value >= 0.0
  {
    if IsScored(p) then
      var gx := AsNumber(Get(p.tracking, "gaze_angle_x", VReal(0.0)));
      var gy := AsNumber(Get(p.tracking, "gaze_angle_y", VReal(0.0)));
      if gx.None? || gy.None? then Failure(TypeError)
      else Success(Some(Abs(gx.value - p.targetX) + Abs(gy.value - p.targetY)))
    else
      Success(None)
  }

  /** Accumulated error and number of scored points. */
  datatype Totals = Totals(error: real, count: nat)

  /** How one point's error combines with the totals of the points after it. */
  function Combine(e: Result<Option<real>, PyError>, rest: Result<Totals, PyError>): Result<Totals, PyError> {
    if e.Failure? then Failure(e.error)
    else if rest.Failure? then Failure(rest.error)
    else if e.value.Some? then Success(Totals(rest.value.error + e.value.value, rest.value.count + 1))
    else rest
  }

  /** The loop of `calculate_results` over the points. */
  function SumErrors(ps: seq<TrackingPoint>): (r: Result<Totals, PyError>)
    ensures r.Failure? ==> r.error == TypeError
    ensures r.Success? ==> r.value.error >= 0.0 && r.value.count <= |ps|
    ensures r.Success? ==> (r.value.count == 0 <==> forall i :: 0 <= i < |ps| ==> !IsScored(ps[i]))
  {
    if |ps| == 0 then
      Success(Totals(0.0, 0))
    else
      assert forall i :: 1 <= i < |ps| ==> ps[i] == ps[1..][i - 1];
      Combine(PointError(ps[0]), SumErrors(ps[1..]))
  }

  /** Points that are not scored do not change the totals, wherever they
      are appended. */
  lemma {:induction false} UnscoredPointIgnored(ps: seq<TrackingPoint>, p: TrackingPoint)
    requires !IsScored(p)
    ensures SumErrors(ps + [p]) == SumErrors(ps)
  {
    if |ps| > 0 {
      assert (ps + [p])[1..] == ps[1..] + [p];
      UnscoredPointIgnored(ps[1..], p);
    }
  }

  /** A scored point adds its error and one to the count, wherever it is
      appended. */
  lemma {:induction false} ScoredPointAdds(ps: seq<TrackingPoint>, p: TrackingPoint, x: real)
    requires SumErrors(ps).Success? && PointError(p) == Success(Some(x))
    ensures SumErrors(ps + [p]).Success?
    ensures SumErrors(ps + [p]).value.error == SumErrors(ps).value.error + x
    ensures SumErrors(ps + [p]).value.count == SumErrors(ps).value.count + 1
    decreases |ps|
  {
    if |ps| == 0 {
      assert ps + [p] == [p];
      assert [p][1..] == [];
    } else {
      ScoredPointAdds(ps[1..], p, x);
      SumStep(ps, p, x);
    }
  }

  /** One step of the induction: the head's contribution commutes with the
      appended point's. */
  lemma SumStep(ps: seq<TrackingPoint>, p: TrackingPoint, x: real)
    requires |ps| > 0 && SumErrors(ps).Success?
    requires SumErrors(ps[1..] + [p]).Success? && SumErrors(ps[1..]).Success?
    requires SumErrors(ps[1..] + [p]).value.error == SumErrors(ps[1..]).value.error + x
    requires SumErrors(ps[1..] + [p]).value.count == SumErrors(ps[1..]).value.count + 1
    ensures SumErrors(ps + [p]).Success?
    ensures SumErrors(ps + [p]).value.error == SumErrors(ps).value.error + x
    ensures SumErrors(ps + [p]).value.count == SumErrors(ps).value.count + 1
  {
    AppendTail(ps, p);
    SumUnfold(ps);
    SumUnfold(ps + [p]);
  }

  lemma SumUnfold(qs: seq<TrackingPoint>)
    requires |qs| > 0
    ensures SumErrors(qs) == Combine(PointError(qs[0]), SumErrors(qs[1..]))
  {
  }

  lemma AppendTail<T>(ps: seq<T>, p: T)
    requires |ps| > 0
    ensures (ps + [p])[0] == ps[0] && (ps + [p])[1..] == ps[1..] + [p]
  {
  }

  /** A point whose gaze is not a number makes the loop raise `TypeError`,
      wherever it is appended. */
  lemma {:induction false} FaultyPointRaises(ps: seq<TrackingPoint>, p: TrackingPoint)
    requires SumErrors(ps).Success? && PointError(p).Failure?
    ensures SumErrors(ps + [p]) == Failure(TypeError)
    decreases |ps|
  {
    var qs := ps + [p];
    if |ps| == 0 {
      assert qs == [p] && qs[0] == p;
    } else {
      assert qs[0] == ps[0] && qs[1..] == ps[1..] + [p];
      FaultyPointRaises(ps[1..], p);
    }
  }

  /** `max(0.0, 1.0 - avg_error / 1000.0)`, or 0.0 with no scored point. */
  function Accuracy(t: Totals): (a: real)
    requires t.error >= 0.0
    ensures 0.0 <= a <= 1.0
    ensures t.count == 0 ==> a == 0.0
    ensures t.count > 0 && t.error == 0.0 ==> a == 1.0
    ensures t.count > 0 ==> (a == 0.0 <==> t.error >= ErrorScale * t.count as real)
    ensures t.count > 0 && a > 0.0 ==> (1.0 - a) * ErrorScale * t.count as real == t.error
  {
    if t.count == 0 then
      0.0
    else
      var avg := t.error / t.count as real;
      var a := 1.0 - avg / ErrorScale;
      if 0.0 > a then 0.0 else a
  }

  /** Over the same number of scored points, more total error never gives
      a higher accuracy. */
  lemma MoreErrorNeverMoreAccurate(t: Totals, u: Totals)
    requires 0.0 <= t.error <= u.error && t.count == u.count
    ensures Accuracy(u) <= Accuracy(t)
  {
    if t.count > 0 {
      var n := t.count as real;
      assert t.error / n <= u.error / n by {
        assert (u.error - t.error) / n >= 0.0;
      }
    }
  }

  /** The assessment and analysis texts for an accuracy. */
  function Assess(accuracy: real): (r: (string, string))
    ensures r.0 == "Excellent" <==> accuracy > 0.8
    ensures r.0 == "Poor" <==> accuracy <= 0.4
    ensures r.0 in {"Excellent", "Good", "Fair", "Poor"}
  {
    if accuracy > 0.8 then ("Excellent", "High accuracy tracking")
    else if accuracy > 0.6 then ("Good", "Moderate accuracy tracking")
    else if accuracy > 0.4 then ("Fair", "Room for improvement")
    else ("Poor", "Significant tracking issues detected")
  }

  /** Position of an assessment on the scale Poor < Fair < Good < Excellent. */
  function Grade(assessment: string): nat {
    if assessment == "Excellent" then 3
    else if assessment == "Good" then 2
    else if assessment == "Fair" then 1
    else 0
  }

  /** A higher accuracy never gets a worse assessment, and the bands are
      open at their lower ends (0.8 is "Good", not "Excellent"). */
  lemma AssessMonotone(a: real, b: real)
    requires a <= b
    ensures Grade(Assess(a).0) <= Grade(Assess(b).0)
    ensures Assess(0.8).0 == "Good" && Assess(0.6).0 == "Fair" && Assess(0.4).0 == "Poor"
  {
  }

  /** `calculate_results`. Without points it returns the "Incomplete"
      result without storing it; otherwise it stores and returns the
      scored result. A non-numeric gaze angle raises `TypeError`. */
  function CalculateResults(s: TestSession): (r: Result<(TestResults, TestSession), PyError>)
    ensures |s.trackingData| == 0 ==> r == Success((TestResults(0.0, 0.0, "No data", "Incomplete"), s))
    ensures r.Failure? ==> r.error == TypeError
    ensures r.Success? ==> 0.0 <= r.value.0.accuracy <= 1.0
    ensures |s.trackingData| > 0 ==> (r.Success? <==> SumErrors(s.trackingData).Success?)
    ensures r.Success? && |s.trackingData| > 0 ==>
      && r.value.1 == s.(results := Some(r.value.0))
      && r.value.0.accuracy == Accuracy(SumErrors(s.trackingData).value)
      && r.value.0.reactionTime == PlaceholderReactionTime
      && (r.value.0.overallAssessment, r.value.0.movementAnalysis) == Assess(r.value.0.accuracy)
  {
    if |s.trackingData| == 0 then
      Success((TestResults(0.0, 0.0, "No data", "Incomplete"), s))
    else
      var totals :- SumErrors(s.trackingData);
      var accuracy := Accuracy(totals);
      var (assessment, analysis) := Assess(accuracy);
      var results := TestResults(accuracy, PlaceholderReactionTime, analysis, assessment);
      Success((results, s.(results := Some(results))))
  }

  /** Every scored point hitting its target exactly gives accuracy 1.0 and
      the assessment "Excellent". */
  lemma PerfectTrackingIsExcellent(s: TestSession)
    requires |s.trackingData| > 0
    requires SumErrors(s.trackingData) == Success(Totals(0.0, |s.trackingData|))
    ensures CalculateResults(s).Success?
    ensures CalculateResults(s).value.0.accuracy == 1.0
    ensures CalculateResults(s).value.0.overallAssessment == "Excellent"
  {
  }

  /** A session whose points were all recorded without a detected face
      scores accuracy 0.0 and "Poor". */
  lemma NoScoredPointIsPoor(s: TestSession)
    requires |s.trackingData| > 0
    requires forall i :: 0 <= i < |s.trackingData| ==> !IsScored(s.trackingData[i])
    ensures CalculateResults(s).Success?
    ensures CalculateResults(s).value.0.accuracy == 0.0
    ensures CalculateResults(s).value.0.overallAssessment == "Poor"
  {
    NoScoredPointSumsToZero(s.trackingData);
  }

  lemma {:induction false} NoScoredPointSumsToZero(ps: seq<TrackingPoint>)
    requires forall i :: 0 <= i < |ps| ==> !IsScored(ps[i])
    ensures SumErrors(ps) == Success(Totals(0.0, 0))
  {
    if |ps| > 0 {
      assert !IsScored(ps[0]);
      NoScoredPointSumsToZero(ps[1..]);
    }
  }

  /** Recording a point without a face in a non-empty session changes
      neither the score nor the stored result. */
  lemma UnscoredPointKeepsResults(s: TestSession, now: Timestamp, tracking: Dict, targetX: real, targetY: real)
    requires |s.trackingData| > 0
    requires !Truthy(Get(tracking, "face_detected", VNone))
    ensures var s' := AddTrackingPoint(s, now, tracking, targetX, targetY);
      CalculateResults(s').Success? == CalculateResults(s).Success?
      && (CalculateResults(s).Success? ==> CalculateResults(s').value.0 == CalculateResults(s).value.0)
  {
    var p := TrackingPoint(now, tracking, targetX, targetY);
    UnscoredPointIgnored(s.trackingData, p);
  }

  /** `to_dict`: the session's fields, nested records as dictionaries, and
      the number of tracking points instead of the points. */
  function SessionToDict(s: TestSession): (d: Dict)
    ensures d.Keys == {"session_id", "user_id", "configuration", "started_at", "completed_at", "results", "tracking_data_count"}
    ensures d["tracking_data_count"] == VInt(|s.trackingData|)
    ensures d["results"] == VNone <==> s.results.None?
    ensures d["completed_at"] == VNone <==> !IsComplete(s)
    ensures d["user_id"] == VInt(s.userId) && d["started_at"] == VStr(s.startedAt)
    ensures d["configuration"].VDict? && ConfigurationFromDict(d["configuration"].d) == Some(s.configuration)
    ensures s.results.Some? ==> d["results"].VDict? && ResultsFromDict(d["results"].d) == s.results
  {
    ConfigurationRoundTrip(s.configuration);
    map[
      "session_id" := if s.sessionId.Some? then VInt(s.sessionId.value) else VNone,
      "user_id" := VInt(s.userId),
      "configuration" := VDict(ConfigurationToDict(s.configuration)),
      "started_at" := VStr(s.startedAt),
      "completed_at" := if s.completedAt.Some? then VStr(s.completedAt.value) else VNone,
      "results" := if s.results.Some? then VDict(ResultsToDict(s.results.value)) else VNone,
      "tracking_data_count" := VInt(|s.trackingData|)]
  }

  /** Each recorded point raises the stored count by one and leaves the rest
      of the dictionary as it was. */
  lemma AddTrackingPointCounts(s: TestSession, now: Timestamp, tracking: Dict, targetX: real, targetY: real)
    ensures var d := SessionToDict(s);
      SessionToDict(AddTrackingPoint(s, now, tracking, targetX, targetY)) == d["tracking_data_count" := VInt(|s.trackingData| + 1)]
  {
  }
}

=== FILE: py_tracking_engine.dfy ===
/** The desktop application's `TrackingEngine`: its state, calibration
    flags, camera parameters, distance estimate, head-movement test and the
    per-frame pipeline `process_frame`
    (python_desktop/tracking/tracking_engine.py).

    The camera read, the cascades' detections and the drawing on the
    display frame are outside the model: a frame is its pixel grid, and
    what the cascades return is an input. */
module PyTrackingEngine {
  import opened Wrappers
  import opened Geometry
  import opened PyValues
  import opened PyTrackingResult
  import opened PyFaceDetector
  import opened PyEyeTracker

  datatype Engine = Engine(
    detector: Detector,
    eyeCascadeLoaded: bool,
    isTracking: bool,
    calibrated: bool,
    focalLength: real,
    averageFaceWidthCm: real,
    previousFaceCenter: Option<Pixel>)

  const ConfiguredFocalLength := 2000.0
  const ConfiguredFaceWidthCm := 15.0
  const MovementThreshold := 10
  const DetectedConfidence := 0.8

  /** `__init__`, given whether the face and eye cascades load. */
  function Init(haarLoads: bool, eyeCascadeLoads: bool): (e: Engine)
    ensures !e.isTracking && !e.calibrated && e.previousFaceCenter == None
    ensures e.focalLength == ConfiguredFocalLength && e.averageFaceWidthCm == ConfiguredFaceWidthCm
    ensures e.detector == InitializeDetectors(ConfiguredBackend, haarLoads)
  {
    Engine(InitializeDetectors(ConfiguredBackend, haarLoads), eyeCascadeLoads, false, false,
           ConfiguredFocalLength, ConfiguredFaceWidthCm, None)
  }

  function StartTracking(e: Engine): (e': Engine)
    ensures e'.isTracking && e' == e.(isTracking := true)
  {
    e.(isTracking := true)
  }

  function StopTracking(e: Engine): (e': Engine)
    ensures !e'.isTracking && e' == e.(isTracking := false)
  {
    e.(isTracking := false)
  }

  /** `start_calibration` only clears the flag. */
  function StartCalibration(e: Engine): (e': Engine)
    ensures !e'.calibrated && e' == e.(calibrated := false)
  {
    e.(calibrated := false)
  }

  /** `finish_calibration` sets the flag unconditionally: unlike the C++
      engine no calibration points are collected or counted. */
  function FinishCalibration(e: Engine): (e': Engine)
    ensures e'.calibrated && e' == e.(calibrated := true)
  {
    e.(calibrated := true)
  }

  /** `set_camera_parameters`: the face width only changes when given. */
  function SetCameraParameters(e: Engine, focalLength: real, averageFaceWidth: Option<real>): (e': Engine)
    ensures e'.focalLength == focalLength
    ensures e'.averageFaceWidthCm == (if averageFaceWidth.Some? then averageFaceWidth.value else e.averageFaceWidthCm)
    ensures e'.calibrated == e.calibrated && e'.isTracking == e.isTracking
    ensures e'.previousFaceCenter == e.previousFaceCenter && e'.detector == e.detector
  {
    e.(focalLength := focalLength,
       averageFaceWidthCm := if averageFaceWidth.Some? then averageFaceWidth.value else e.averageFaceWidthCm)
  }

  /** `calculate_face_distance`: real width * focal length / pixel width, or
      0 for a non-positive pixel width. There is no guard on the focal
      length. */
  function CalculateFaceDistance(e: Engine, faceWidthPixels: int): (d: real)
    ensures faceWidthPixels > 0 ==> d * faceWidthPixels as real == e.averageFaceWidthCm * e.focalLength
    ensures faceWidthPixels <= 0 ==> d == 0.0
  {
    if faceWidthPixels <= 0 then 0.0
    else e.averageFaceWidthCm * e.focalLength / faceWidthPixels as real
  }

  /** Without a focal-length guard, a negative focal length set through
      `set_camera_parameters` yields a negative distance, where the C++
      engine reports 0. */
  lemma NegativeFocalGivesNegativeDistance(e: Engine, w: int)
    requires w > 0 && e.focalLength < 0.0 && e.averageFaceWidthCm > 0.0
    ensures CalculateFaceDistance(e, w) < 0.0
  {
    var d := CalculateFaceDistance(e, w);
    var p := e.averageFaceWidthCm * e.focalLength;
    assert p < 0.0 by { NegativeProduct(e.averageFaceWidthCm, e.focalLength); }
    if d >= 0.0 {
      NonNegativeProduct(d, w as real);
    }
  }

  lemma NegativeProduct(a: real, b: real)
    requires a > 0.0 && b < 0.0
    ensures a * b < 0.0
  {
    assert a * (-b) > 0.0;
  }

  lemma NonNegativeProduct(a: real, b: real)
    requires a >= 0.0 && b > 0.0
    ensures a * b >= 0.0
  {
  }

  /** Squared pixel distance between two face centres. */
  function SqPixelDist(a: Pixel, b: Pixel): (q: int)
    ensures q >= 0
  {
    (a.x - b.x) * (a.x - b.x) + (a.y - b.y) * (a.y - b.y)
  }

  /** `detect_movement`: never on the first face after none; afterwards
      when the centre moved more than 10 pixels (compared on squares). */
  function DetectMovement(previous: Option<Pixel>, current: Pixel): (moving: bool)
    ensures previous.None? ==> !moving
  {
    previous.Some? && SqPixelDist(current, previous.value) > MovementThreshold * MovementThreshold
  }

  /** The squared comparison agrees with the source's `np.sqrt(...) > 10`
      for an exact square root. */
  lemma MovementIsNormAboveThreshold(previous: Pixel, current: Pixel, sqrt: real -> real)
    requires ExactRoot(sqrt, SqPixelDist(current, previous) as real)
    ensures DetectMovement(Some(previous), current) <==> sqrt(SqPixelDist(current, previous) as real) > MovementThreshold as real
  {
    RootAboveIff(sqrt, SqPixelDist(current, previous) as real, MovementThreshold as real);
  }

  /** Where the frame comes from: passed in, or read from the camera (a
      failed read gives `None`). */
  datatype FrameSource = Given(frame: Frame) | FromCamera(read: Option<Frame>)

  /** What the cascades return for this frame. */
  datatype Detections = Detections(faces: seq<Rect>, eyes: seq<Rect>)

  /** The returned result, the display frame (drawing is not modelled) and
      the engine's state afterwards. */
  datatype Step = Step(result: TrackingResult, display: Option<Frame>, engine: Engine)

  /** The result for a detected face. */
  function FaceResult(distance: real, gaze: Angles, moving: bool, face: Rect): (r: TrackingResult)
    ensures r.faceDetected && !r.shouldersMoving && r.confidence == DetectedConfidence
    ensures r.faceRectX == face.x as real && r.faceRectY == face.y as real
    ensures r.faceRectWidth == face.w as real && r.faceRectHeight == face.h as real
    ensures r.eyesFocused == AreEyesFocused(gaze) && r.headMoving == moving
    ensures r.gazeAngleX == gaze.x && r.gazeAngleY == gaze.y && r.faceDistance == distance
  {
    var base := WithDefaults(distance, gaze.x, gaze.y, AreEyesFocused(gaze), moving, false, true);
    base.(faceRectX := face.x as real, faceRectY := face.y as real,
          faceRectWidth := face.w as real, faceRectHeight := face.h as real,
          confidence := DetectedConfidence)
  }

  /** The cascade runs with `minSize=(30, 30)`, so every box it returns is
      at least 30 pixels wide and high. */
  const MinFaceSize := 30

  predicate CascadeSized(faces: seq<Rect>) {
    forall i :: 0 <= i < |faces| ==> faces[i].w >= MinFaceSize && faces[i].h >= MinFaceSize
  }

  /** The frame to process, if any: the one passed in, or the camera's. */
  function FrameOf(source: FrameSource): Option<Frame> {
    if source.Given? then Some(source.frame) else source.read
  }

  /** No frame to process: none was passed and the engine is not tracking,
      or the camera read failed. */
  predicate NoFrame(e: Engine, source: FrameSource) {
    source.FromCamera? && (!e.isTracking || source.read.None?)
  }

  /** The face the detector picks in the frame being processed, if any. */
  function ChosenFace(e: Engine, source: FrameSource, d: Detections): (f: Option<Rect>)
    ensures f.Some? ==> !NoFrame(e, source) && f.value in d.faces
  {
    if NoFrame(e, source) then None
    else
      var frame := FrameOf(source).value;
      DetectFace(e.detector, frame.rows == 0 || frame.cols == 0, d.faces)
  }

  /** `process_frame`. Without a frame the empty result comes back with no
      display frame and the state untouched. Without a face the empty
      result comes back and the previous centre is forgotten. With a face,
      the result reports its box, the distance for its width, the gaze
      estimate for its eyes and whether its centre moved away from the
      stored one; the new centre is stored afterwards. Since the cascade's
      boxes are at least 30 pixels in each direction, the gaze estimate
      never divides by zero. */
  function ProcessFrame(e: Engine, source: FrameSource, d: Detections): (s: Step)
    requires CascadeSized(d.faces)
    ensures NoFrame(e, source) ==> s == Step(Empty, None, e)
    ensures !NoFrame(e, source) && ChosenFace(e, source, d).None? ==>
      s == Step(Empty, FrameOf(source), e.(previousFaceCenter := None))
    ensures ChosenFace(e, source, d).Some? ==>
      var f := ChosenFace(e, source, d).value;
      var gaze := Angles(s.result.gazeAngleX, s.result.gazeAngleY);
      && s.result == FaceResult(CalculateFaceDistance(e, f.w), gaze, DetectMovement(e.previousFaceCenter, FaceCenter(f)), f)
      && EstimateGaze(e.eyeCascadeLoaded, FrameOf(source).value, f, d.eyes) == Success(gaze)
      && s.engine == e.(previousFaceCenter := Some(FaceCenter(f)))
      && s.display == FrameOf(source)
    ensures s.result.headMoving ==> e.previousFaceCenter.Some?
    ensures !NoFrame(e, source) ==> (s.result.faceDetected <==> s.engine.previousFaceCenter.Some?)
  {
    if NoFrame(e, source) then
      Step(Empty, None, e)
    else
      var frame := FrameOf(source).value;
      var face := ChosenFace(e, source, d);
      if face.None? then
        Step(Empty, Some(frame), e.(previousFaceCenter := None))
      else
        var f := face.value;
        var distance := CalculateFaceDistance(e, f.w);
        var estimate := EstimateGaze(e.eyeCascadeLoaded, frame, f, d.eyes);
        assert estimate.Success? by {
          var i :| 0 <= i < |d.faces| && d.faces[i] == f;
        }
        var gaze := estimate.value;
        var center := FaceCenter(f);
        var moving := DetectMovement(e.previousFaceCenter, center);
        Step(FaceResult(distance, gaze, moving, f), Some(frame), e.(previousFaceCenter := Some(center)))
  }

  /** After a processed frame without a face, the next frame never reports
      head movement: the previous centre was forgotten. */
  lemma FaceMissResetsMovement(e: Engine, source: FrameSource, d: Detections, nextSource: FrameSource, next: Detections)
    requires CascadeSized(d.faces) && CascadeSized(next.faces)
    requires !NoFrame(e, source) && ChosenFace(e, source, d).None?
    ensures !ProcessFrame(ProcessFrame(e, source, d).engine, nextSource, next).result.headMoving
  {
  }

  /** The same frame with the same detections twice in a row: the second
      time the face has not moved. */
  lemma SteadyFaceNoMovement(e: Engine, source: FrameSource, d: Detections)
    requires CascadeSized(d.faces)
    requires ChosenFace(e, source, d).Some?
    ensures var s := ProcessFrame(ProcessFrame(e, source, d).engine, source, d);
      s.result.faceDetected && !s.result.headMoving
  {
    var e1 := ProcessFrame(e, source, d).engine;
    assert ChosenFace(e1, source, d) == ChosenFace(e, source, d);
  }

  /** A face in which fewer than two eyes were found gets the neutral gaze
      and is reported as focused. */
  lemma FewEyesReportedFocused(e: Engine, frame: Frame, d: Detections)
    requires CascadeSized(d.faces)
    requires ChosenFace(e, Given(frame), d).Some?
    requires |d.eyes| < 2
    ensures var r := ProcessFrame(e, Given(frame), d).result;
      r.faceDetected && r.eyesFocused && r.gazeAngleX == 0.0 && r.gazeAngleY == 0.0
  {
    NeutralGazeIsFocused();
  }

  /** An engine whose detector was built for "yolo" never reports a face. */
  lemma YoloEngineNeverDetects(e: Engine, haarLoads: bool, source: FrameSource, d: Detections)
    requires CascadeSized(d.faces)
    requires e.detector == InitializeDetectors("yolo", haarLoads)
    ensures ProcessFrame(e, source, d).result == Empty
  {
    var frame := if source.Given? then source.frame else if source.read.Some? then source.read.value else Frame(0, 0);
    OnlyHaarCanDetect("yolo", haarLoads, frame.rows == 0 || frame.cols == 0, d.faces);
  }

  /** A stopped engine processes no camera frame, whatever the camera read. */
  lemma StoppedEngineIgnoresCamera(e: Engine, read: Option<Frame>, d: Detections)
    requires CascadeSized(d.faces)
    ensures ProcessFrame(StopTracking(e), FromCamera(read), d) == Step(Empty, None, StopTracking(e))
  {
  }

  /** The focal length and face width set through `set_camera_parameters`
      are the ones the next frame's distance is computed with. */
  lemma CameraParametersSetDistance(e: Engine, focalLength: real, faceWidth: Option<real>, source: FrameSource, d: Detections)
    requires CascadeSized(d.faces)
    requires ChosenFace(e, source, d).Some?
    ensures var e' := SetCameraParameters(e, focalLength, faceWidth);
      var w := ChosenFace(e, source, d).value.w;
      ProcessFrame(e', source, d).result.faceDistance * w as real == e'.averageFaceWidthCm * focalLength
  {
    var e' := SetCameraParameters(e, focalLength, faceWidth);
    assert ChosenFace(e', source, d) == ChosenFace(e, source, d);
  }

  /** The calibration flag does not enter the per-frame pipeline: an engine
      after `start_calibration` and one after `finish_calibration` report
      the same result for the same frame. */
  lemma CalibrationDoesNotAffectFrames(e: Engine, source: FrameSource, d: Detections)
    requires CascadeSized(d.faces)
    ensures ProcessFrame(StartCalibration(e), source, d).result == ProcessFrame(FinishCalibration(e), source, d).result
  {
    var e1 := StartCalibration(e);
    var e2 := FinishCalibration(e);
    assert e1.(calibrated := true) == e2;
    assert NoFrame(e1, source) == NoFrame(e2, source);
    assert ChosenFace(e1, source, d) == ChosenFace(e2, source, d);
    var f := ChosenFace(e1, source, d);
    if f.Some? {
      var r1 := ProcessFrame(e1, source, d).result;
      var r2 := ProcessFrame(e2, source, d).result;
      SameCameraSameDistance(e1, e2, f.value.w);
      assert Angles(r1.gazeAngleX, r1.gazeAngleY) == Angles(r2.gazeAngleX, r2.gazeAngleY);
    }
  }

  lemma SameCameraSameDistance(a: Engine, b: Engine, w: int)
    requires a.focalLength == b.focalLength && a.averageFaceWidthCm == b.averageFaceWidthCm
    ensures CalculateFaceDistance(a, w) == CalculateFaceDistance(b, w)
  {
  }
}

=== FILE: py_tracking_result.dfy ===
/** The desktop application's `TrackingResult` record and its dictionary
    form (python_desktop/models/tracking_result.py). */
module PyTrackingResult {
  import opened Wrappers
  import opened PyValues

  datatype TrackingResult = TrackingResult(
    faceDistance: real,
    gazeAngleX: real,
    gazeAngleY: real,
    eyesFocused: bool,
    headMoving: bool,
    shouldersMoving: bool,
    faceDetected: bool,
    faceRectX: real,
    faceRectY: real,
    faceRectWidth: real,
    faceRectHeight: real,
    headPosePitch: real,
    headPoseYaw: real,
    headPoseRoll: real,
    gazeVectorX: real,
    gazeVectorY: real,
    gazeVectorZ: real,
    confidence: real)

  /** The constructor with only the seven required fields given; every other
      field takes its declared default of 0.0. */
  function WithDefaults(faceDistance: real, gazeAngleX: real, gazeAngleY: real, eyesFocused: bool,
                        headMoving: bool, shouldersMoving: bool, faceDetected: bool): (r: TrackingResult)
    ensures r.faceDistance == faceDistance && r.gazeAngleX == gazeAngleX && r.gazeAngleY == gazeAngleY
    ensures r.eyesFocused == eyesFocused && r.headMoving == headMoving
    ensures r.shouldersMoving == shouldersMoving && r.faceDetected == faceDetected
    ensures r.faceRectX == 0.0 && r.faceRectY == 0.0 && r.faceRectWidth == 0.0 && r.faceRectHeight == 0.0
    ensures r.headPosePitch == 0.0 && r.headPoseYaw == 0.0 && r.headPoseRoll == 0.0
    ensures r.gazeVectorX == 0.0 && r.gazeVectorY == 0.0 && r.gazeVectorZ == 0.0 && r.confidence == 0.0
  {
    TrackingResult(faceDistance, gazeAngleX, gazeAngleY, eyesFocused, headMoving, shouldersMoving, faceDetected,
                   0.0, 0.0, 0.0, 0.0, 0.0, 0.0, 0.0, 0.0, 0.0, 0.0, 0.0)
  }

  /** `TrackingResult.empty()`: nothing detected, every number zero. */
  const Empty := WithDefaults(0.0, 0.0, 0.0, false, false, false, false)

  /** The eighteen keys of the dictionary form. */
  const Keys: set<string> := {
    "face_distance", "gaze_angle_x", "gaze_angle_y", "eyes_focused", "head_moving",
    "shoulders_moving", "face_detected", "face_rect_x", "face_rect_y", "face_rect_width",
    "face_rect_height", "head_pose_pitch", "head_pose_yaw", "head_pose_roll",
    "gaze_vector_x", "gaze_vector_y", "gaze_vector_z", "confidence"}

  /** `to_dict`. */
  function ToDict(t: TrackingResult): (d: Dict)
    ensures d.Keys == Keys
  {
    map[
      "face_distance" := VReal(t.faceDistance),
      "gaze_angle_x" := VReal(t.gazeAngleX),
      "gaze_angle_y" := VReal(t.gazeAngleY),
      "eyes_focused" := VBool(t.eyesFocused),
      "head_moving" := VBool(t.headMoving),
      "shoulders_moving" := VBool(t.shouldersMoving),
      "face_detected" := VBool(t.faceDetected),
      "face_rect_x" := VReal(t.faceRectX),
      "face_rect_y" := VReal(t.faceRectY),
      "face_rect_width" := VReal(t.faceRectWidth),
      "face_rect_height" := VReal(t.faceRectHeight),
      "head_pose_pitch" := VReal(t.headPosePitch),
      "head_pose_yaw" := VReal(t.headPoseYaw),
      "head_pose_roll" := VReal(t.headPoseRoll),
      "gaze_vector_x" := VReal(t.gazeVectorX),
      "gaze_vector_y" := VReal(t.gazeVectorY),
      "gaze_vector_z" := VReal(t.gazeVectorZ),
      "confidence" := VReal(t.confidence)]
  }

  /** Reads a result back from its dictionary form; `None` when a key is
      missing or holds a value of the wrong kind. */
  function FromDict(d: Dict): Option<TrackingResult>
  {
    var faceDistance :- RealAt(d, "face_distance");
    var gazeAngleX :- RealAt(d, "gaze_angle_x");
    var gazeAngleY :- RealAt(d, "gaze_angle_y");
    var eyesFocused :- BoolAt(d, "eyes_focused");
    var headMoving :- BoolAt(d, "head_moving");
    var shouldersMoving :- BoolAt(d, "shoulders_moving");
    var faceDetected :- BoolAt(d, "face_detected");
    var faceRectX :- RealAt(d, "face_rect_x");
    var faceRectY :- RealAt(d, "face_rect_y");
    var faceRectWidth :- RealAt(d, "face_rect_width");
    var faceRectHeight :- RealAt(d, "face_rect_height");
    var headPosePitch :- RealAt(d, "head_pose_pitch");
    var headPoseYaw :- RealAt(d, "head_pose_yaw");
    var headPoseRoll :- RealAt(d, "head_pose_roll");
    var gazeVectorX :- RealAt(d, "gaze_vector_x");
    var gazeVectorY :- RealAt(d, "gaze_vector_y");
    var gazeVectorZ :- RealAt(d, "gaze_vector_z");
    var confidence :- RealAt(d, "confidence");
    Some(TrackingResult(faceDistance, gazeAngleX, gazeAngleY, eyesFocused, headMoving, shouldersMoving,
                        faceDetected, faceRectX, faceRectY, faceRectWidth, faceRectHeight, headPosePitch,
                        headPoseYaw, headPoseRoll, gazeVectorX, gazeVectorY, gazeVectorZ, confidence))
  }

  /** The dictionary form loses nothing: reading it back gives the result. */
  lemma ToDictRoundTrip(t: TrackingResult)
    ensures FromDict(ToDict(t)) == Some(t)
  {
    var d := ToDict(t);
    assert RealAt(d, "face_distance") == Some(t.faceDistance);
    assert RealAt(d, "gaze_angle_x") == Some(t.gazeAngleX);
    assert RealAt(d, "gaze_angle_y") == Some(t.gazeAngleY);
    assert BoolAt(d, "eyes_focused") == Some(t.eyesFocused);
    assert BoolAt(d, "head_moving") == Some(t.headMoving);
    assert BoolAt(d, "shoulders_moving") == Some(t.shouldersMoving);
    assert BoolAt(d, "face_detected") == Some(t.faceDetected);
    assert RealAt(d, "face_rect_x") == Some(t.faceRectX);
    assert RealAt(d, "face_rect_y") == Some(t.faceRectY);
    assert RealAt(d, "face_rect_width") == Some(t.faceRectWidth);
    assert RealAt(d, "face_rect_height") == Some(t.faceRectHeight);
    assert RealAt(d, "head_pose_pitch") == Some(t.headPosePitch);
    assert RealAt(d, "head_pose_yaw") == Some(t.headPoseYaw);
    assert RealAt(d, "head_pose_roll") == Some(t.headPoseRoll);
    assert RealAt(d, "gaze_vector_x") == Some(t.gazeVectorX);
    assert RealAt(d, "gaze_vector_y") == Some(t.gazeVectorY);
    assert RealAt(d, "gaze_vector_z") == Some(t.gazeVectorZ);
    assert RealAt(d, "confidence") == Some(t.confidence);
  }

  /** Hence distinct results have distinct dictionaries. */
  lemma ToDictInjective(a: TrackingResult, b: TrackingResult)
    requires ToDict(a) == ToDict(b)
    ensures a == b
  {
    ToDictRoundTrip(a);
    ToDictRoundTrip(b);
  }

  /** The empty result reports no face and no focus, so a consumer reading
      its dictionary sees both flags falsy. */
  lemma EmptyDictIsFalsy()
    ensures !Truthy(ToDict(Empty)["face_detected"]) && !Truthy(ToDict(Empty)["eyes_focused"])
    ensures ToDict(Empty)["face_distance"] == VReal(0.0)
  {
  }
}

=== FILE: py_user.dfy ===
/** The desktop application's `User` record and its dictionary form
    (python_desktop/models/user.py).

    The dataclass checks no types, so the id, email and role hold whatever
    value they were given. `created_at` is a `datetime`, kept as its ISO
    text; parsing with `datetime.fromisoformat` is a parameter. */
module PyUser {
  import opened Wrappers
  import opened PyValues

  datatype User = User(id: Value, email: Value, role: Value, createdAt: Option<Timestamp>)

  const DefaultRole := VStr("user")
  const AdminRole := VStr("admin")

  /** The constructor with the declared defaults for role and creation time. */
  function NewUser(id: Value, email: Value): (u: User)
    ensures u.id == id && u.email == email && u.role == DefaultRole && u.createdAt.None?
  {
    User(id, email, DefaultRole, None)
  }

  /** `is_admin`: the role is exactly the text "admin". */
  predicate IsAdmin(u: User) {
    u.role == AdminRole
  }

  /** `to_dict`. A present `datetime` is always truthy, so it is stored as
      its ISO text. */
  function ToDict(u: User): (d: Dict)
    ensures d.Keys == {"id", "email", "role", "created_at"}
    ensures d["created_at"] == VNone <==> u.createdAt.None?
  {
    map["id" := u.id, "email" := u.email, "role" := u.role,
        "created_at" := if u.createdAt.Some? then VStr(u.createdAt.value) else VNone]
  }

  /** `from_dict`: "email" is required (`KeyError`), "id" defaults to None,
      "role" to "user"; a truthy "created_at" is parsed, which raises
      `TypeError` for a non-string and `ValueError` for text `parse`
      rejects. Arguments are evaluated in order, so a missing email is
      reported before a bad timestamp. */
  function FromDict(data: Dict, parse: string -> Option<Timestamp>): (r: Result<User, PyError>)
    ensures "email" !in data ==> r == Failure(KeyError("email"))
    ensures r.Success? ==> r.value.email == data["email"]
    ensures r.Success? ==> r.value.id == Get(data, "id", VNone) && r.value.role == Get(data, "role", DefaultRole)
    ensures r.Success? ==> (r.value.createdAt.None? <==> !Truthy(Get(data, "created_at", VNone)))
  {
    if "email" !in data then
      Failure(KeyError("email"))
    else
      var createdAt := Get(data, "created_at", VNone);
      if !Truthy(createdAt) then
        Success(User(Get(data, "id", VNone), data["email"], Get(data, "role", DefaultRole), None))
      else if !createdAt.VStr? then
        Failure(TypeError)
      else
        match parse(createdAt.s)
        case None => Failure(ValueError)
        case Some(t) => Success(User(Get(data, "id", VNone), data["email"], Get(data, "role", DefaultRole), Some(t)))
  }

  /** `datetime.fromisoformat` reads back what `isoformat` wrote. */
  predicate ReadsBack(parse: string -> Option<Timestamp>, t: Option<Timestamp>) {
    t.Some? ==> parse(t.value) == Some(t.value)
  }

  /** Storing a user and loading it back gives the same user. */
  lemma ToDictRoundTrip(u: User, parse: string -> Option<Timestamp>)
    requires ReadsBack(parse, u.createdAt)
    ensures FromDict(ToDict(u), parse) == Success(u)
  {
    var d := ToDict(u);
    assert "email" in d && d["email"] == u.email;
    if u.createdAt.Some? {
      assert Truthy(d["created_at"]);
    }
  }

  /** A dictionary with only an email loads as a default user, who is not
      an admin. */
  lemma EmailOnlyIsDefaultUser(email: Value, parse: string -> Option<Timestamp>)
    ensures FromDict(map["email" := email], parse) == Success(NewUser(VNone, email))
    ensures !IsAdmin(NewUser(VNone, email))
  {
  }

  /** A loaded user is an admin exactly when the dictionary stored the role
      "admin": a missing role gives the default "user", which is not. */
  lemma LoadedAdminIff(data: Dict, parse: string -> Option<Timestamp>)
    requires FromDict(data, parse).Success?
    ensures IsAdmin(FromDict(data, parse).value) <==> "role" in data && data["role"] == AdminRole
  {
    assert DefaultRole != AdminRole;
  }

  /** Storing and reloading a user keeps whether it is an admin. */
  lemma AdminSurvivesStorage(u: User, parse: string -> Option<Timestamp>)
    requires ReadsBack(parse, u.createdAt)
    ensures FromDict(ToDict(u), parse).Success?
    ensures IsAdmin(FromDict(ToDict(u), parse).value) <==> IsAdmin(u)
  {
    ToDictRoundTrip(u, parse);
  }
}

=== FILE: py_values.dfy ===
/** The slice of Python's object model the desktop application's records
    rely on: dictionary values, truthiness, numeric coercion, the
    exceptions the modelled code can raise, and slicing. */
module PyValues {
  import opened Wrappers

  /** A value stored in one of the application's dictionaries. */
  datatype Value =
    | VNone
    | VBool(b: bool)
    | VInt(i: int)
    | VReal(r: real)
    | VStr(s: string)
    | VDict(d: map<string, Value>)

  type Dict = map<string, Value>

  /** The exceptions the modelled code can raise. */
  datatype PyError =
    | KeyError(key: string)
    | TypeError
    | ValueError
    | ZeroDivisionError

  /** An ISO-8601 timestamp as produced by `datetime.isoformat()`; such a
      string is never empty. */
  type Timestamp = s: string | |s| > 0 witness "0"

  /** Python truthiness of a value. */
  predicate Truthy(v: Value) {
    match v
    case VNone => false
    case VBool(b) => b
    case VInt(i) => i != 0
    case VReal(r) => r != 0.0
    case VStr(s) => |s| > 0
    case VDict(d) => |d| > 0
  }

  /** The number a value stands for in arithmetic (`bool` counts as an int
      in Python); `None` for values that make `-` raise `TypeError`. */
  function AsNumber(v: Value): (n: Option<real>)
    ensures n.Some? <==> v.VBool? || v.VInt? || v.VReal?
    ensures v.VReal? ==> n == Some(v.r)
    ensures v.VInt? ==> n == Some(v.i as real)
  {
    match v
    case VBool(b) => Some(if b then 1.0 else 0.0)
    case VInt(i) => Some(i as real)
    case VReal(r) => Some(r)
    case _ => None
  }

  /** `d.get(k, default)`. */
  function Get(d: Dict, k: string, default: Value): (v: Value)
    ensures k in d ==> v == d[k]
    ensures k !in d ==> v == default
  {
    if k in d then d[k] else default
  }

  /** Typed readers for a stored dictionary: the value under `k` when it is
      present and of the expected kind, `None` otherwise. */
  function BoolAt(d: Dict, k: string): Option<bool> {
    if k in d && d[k].VBool? then Some(d[k].b) else None
  }

  function IntAt(d: Dict, k: string): Option<int> {
    if k in d && d[k].VInt? then Some(d[k].i) else None
  }

  function RealAt(d: Dict, k: string): Option<real> {
    if k in d && d[k].VReal? then Some(d[k].r) else None
  }

  function StrAt(d: Dict, k: string): Option<string> {
    if k in d && d[k].VStr? then Some(d[k].s) else None
  }

  /** The length of `range(n)[start:stop]`, that is of a Python slice with
      step 1 of a sequence of length `n`: negative bounds count from the end
      and every bound is clipped to [0, n]. */
  function SliceLength(start: int, stop: int, n: nat): (len: nat)
    ensures len <= n
    ensures 0 <= start <= stop <= n ==> len == stop - start
    ensures start >= stop && (start >= 0) == (stop >= 0) ==> len == 0
  {
    var a := SliceBound(start, n);
    var b := SliceBound(stop, n);
    if a < b then b - a else 0
  }

  function SliceBound(i: int, n: nat): (b: nat)
    ensures b <= n
    ensures 0 <= i <= n ==> b == i
    ensures i < 0 ==> b == (if i + n < 0 then 0 else i + n)
  {
    if i < 0 then (if i + n < 0 then 0 else i + n) else if i > n then n else i
  }
}

=== FILE: rect_order.dfy ===
/** Ordering rectangles by their left edge, as `std::sort` with the comparator
    `a.x < b.x` and Python's `sorted(..., key=lambda e: e[0])` do.

    Python's sort is stable; `std::sort` is not, and leaves the order of
    rectangles with equal `x` unspecified. The model uses one stable insertion
    sort for both, and the facts the engines rely on (the first element has the
    smallest `x`, the last the largest) hold for any sort. */
module RectOrder {
  import opened Geometry

  predicate SortedByX(s: seq<Rect>) {
    forall i, j :: 0 <= i < j < |s| ==> s[i].x <= s[j].x
  }

  /** Every rectangle of `s` starts at or left of every rectangle of `t`. */
  predicate AllLeftOf(s: seq<Rect>, t: seq<Rect>) {
    forall i, j :: 0 <= i < |s| && 0 <= j < |t| ==> s[i].x <= t[j].x
  }

  /** Inserts `a` before the first element whose `x` is not smaller, which
      keeps `a` ahead of equal keys that came after it in the input. */
  function Insert(a: Rect, s: seq<Rect>): seq<Rect> {
    if |s| == 0 || a.x <= s[0].x then [a] + s else [s[0]] + Insert(a, s[1..])
  }

  /** Inserting never adds an element lying left of a common lower bound. */
  lemma {:induction false} InsertAbove(a: Rect, s: seq<Rect>, lo: int)
    requires lo <= a.x
    requires forall k :: 0 <= k < |s| ==> lo <= s[k].x
    ensures forall k :: 0 <= k < |Insert(a, s)| ==> lo <= Insert(a, s)[k].x
  {
    if |s| > 0 && a.x > s[0].x {
      InsertAbove(a, s[1..], lo);
    }
  }

  /** Inserting adds exactly `a`. */
  lemma {:induction false} InsertAddsOne(a: Rect, s: seq<Rect>)
    ensures multiset(Insert(a, s)) == multiset(s) + multiset{a}
    ensures |Insert(a, s)| == |s| + 1
  {
    if |s| > 0 && a.x > s[0].x {
      InsertAddsOne(a, s[1..]);
      assert s == [s[0]] + s[1..];
    }
  }

  /** Inserting into a sorted sequence keeps it sorted and adds exactly `a`. */
  lemma {:induction false} InsertSorted(a: Rect, s: seq<Rect>)
    requires SortedByX(s)
    ensures SortedByX(Insert(a, s))
    ensures multiset(Insert(a, s)) == multiset(s) + multiset{a}
    ensures |Insert(a, s)| == |s| + 1
  {
    InsertAddsOne(a, s);
    if |s| > 0 && a.x > s[0].x {
      var tail := s[1..];
      assert SortedByX(tail) by {
        forall i, j | 0 <= i < j < |tail| ensures tail[i].x <= tail[j].x {
          assert tail[i] == s[i + 1] && tail[j] == s[j + 1];
        }
      }
      InsertSorted(a, tail);
      assert forall k :: 0 <= k < |tail| ==> s[0].x <= tail[k].x by {
        forall k | 0 <= k < |tail| ensures s[0].x <= tail[k].x {
          assert tail[k] == s[k + 1];
        }
      }
      InsertAbove(a, tail, s[0].x);
    }
  }

  /** A stable sort of `s` by `x`. */
  function SortByX(s: seq<Rect>): (r: seq<Rect>)
    ensures SortedByX(r)
    ensures multiset(r) == multiset(s)
    ensures |r| == |s|
  {
    if |s| == 0 then
      []
    else
      assert s == [s[0]] + s[1..];
      var sortedTail := SortByX(s[1..]);
      InsertSorted(s[0], sortedTail);
      Insert(s[0], sortedTail)
  }

  /** An element of a permutation of `s` is an element of `s`. */
  lemma InPermutation(r: seq<Rect>, s: seq<Rect>, k: int)
    requires multiset(r) == multiset(s) && 0 <= k < |r|
    ensures r[k] in s
  {
    assert r[k] in multiset(r);
  }

  /** In a sorted permutation of `s`, the first element is one of `s` with
      the smallest `x` and the last one with the largest. */
  lemma SortedPermutationExtremes(r: seq<Rect>, s: seq<Rect>)
    requires SortedByX(r) && multiset(r) == multiset(s) && |r| > 0
    ensures r[0] in s && r[|r| - 1] in s
    ensures forall b :: b in s ==> r[0].x <= b.x <= r[|r| - 1].x
  {
    InPermutation(r, s, 0);
    InPermutation(r, s, |r| - 1);
    forall b | b in s
      ensures r[0].x <= b.x <= r[|r| - 1].x
    {
      assert b in multiset(s);
      assert b in multiset(r);
      assert b in r;
      var k :| 0 <= k < |r| && r[k] == b;
    }
  }

  /** The first rectangle after sorting is one of the input with the smallest
      `x`, and the last one with the largest. */
  lemma SortExtremes(s: seq<Rect>)
    requires |s| > 0
    ensures SortByX(s)[0] in s
    ensures SortByX(s)[|s| - 1] in s
    ensures forall b :: b in s ==> SortByX(s)[0].x <= b.x <= SortByX(s)[|s| - 1].x
  {
    SortedPermutationExtremes(SortByX(s), s);
  }

  /** Inserting `a` into `A ++ B` where `a` lies at or left of all of `B`
      only touches the `A` part. */
  lemma {:induction false} InsertBeforeRight(a: Rect, A: seq<Rect>, B: seq<Rect>)
    requires forall j :: 0 <= j < |B| ==> a.x <= B[j].x
    ensures Insert(a, A + B) == Insert(a, A) + B
    decreases |A|
  {
    if |A| > 0 {
      assert (A + B)[0] == A[0];
      if a.x > A[0].x {
        assert (A + B)[1..] == A[1..] + B;
        InsertBeforeRight(a, A[1..], B);
      }
    } else {
      assert A + B == B;
    }
  }

  /** Permuting both sides keeps one side left of the other. */
  lemma LeftOfPermuted(A: seq<Rect>, s: seq<Rect>, B: seq<Rect>, t: seq<Rect>)
    requires multiset(A) == multiset(s) && multiset(B) == multiset(t)
    requires AllLeftOf(s, t)
    ensures AllLeftOf(A, B)
  {
    forall i, j | 0 <= i < |A| && 0 <= j < |B|
      ensures A[i].x <= B[j].x
    {
      InPermutation(A, s, i);
      InPermutation(B, t, j);
      var m :| 0 <= m < |s| && s[m] == A[i];
      var n :| 0 <= n < |t| && t[n] == B[j];
    }
  }

  /** Stability at the seam: when every rectangle of `s` lies at or left of
      every rectangle of `t`, sorting `s ++ t` sorts the two parts separately. */
  lemma {:induction false} SortAppendRight(s: seq<Rect>, t: seq<Rect>)
    requires AllLeftOf(s, t)
    ensures SortByX(s + t) == SortByX(s) + SortByX(t)
    decreases |s|
  {
    if |s| == 0 {
      assert s + t == t;
    } else {
      var tail := s[1..];
      assert (s + t)[0] == s[0];
      assert (s + t)[1..] == tail + t;
      assert AllLeftOf(tail, t) by {
        forall i, j | 0 <= i < |tail| && 0 <= j < |t|
          ensures tail[i].x <= t[j].x
        {
          assert tail[i] == s[i + 1];
        }
      }
      SortAppendRight(tail, t);
      var A := SortByX(tail);
      var B := SortByX(t);
      LeftOfPermuted(A, tail, B, t);
      LeftOfPermuted([s[0]], [s[0]], B, t);
      assert forall j :: 0 <= j < |B| ==> s[0].x <= B[j].x by {
        assert forall j :: 0 <= j < |B| ==> [s[0]][0].x <= B[j].x;
      }
      InsertBeforeRight(s[0], A, B);
      assert SortByX(s + t) == Insert(s[0], A + B);
    }
  }
}

=== FILE: wrappers.dfy ===
/** Failure-compatible wrappers used across the model: Python's `None` and raised exceptions. */
module Wrappers {

  /** A value that may be absent (Python `Optional[...]`, `None`). */
  datatype Option<+T> = None | Some(value: T) {
    predicate IsFailure() {
      None?
    }

    function PropagateFailure<U>(): Option<U>
      requires None?
    {
      None
    }

    function Extract(): T
      requires Some?
    {
      value
    }
  }

  /** A computation that returns a value or raises an error. */
  datatype Result<+R, +E> = Success(value: R) | Failure(error: E) {
    predicate IsFailure() {
      Failure?
    }

    function PropagateFailure<U>(): Result<U, E>
      requires Failure?
    {
      Failure(error)
    }

    function Extract(): R
      requires Success?
    {
      value
    }
  }
}
